=== FILE: README.md ===
# AzureMovies decision layer, in Dafny

This project models the request-handling core of the AzureMovies service, an ASP.NET Core CRUD API over actors, movies and the roles that link them. The database is an immutable in-memory catalog (`Database.Catalog`):

- actors and movies are finite maps from id to row;
- roles are a set of `(movieId, actorId)` pairs;
- two identity counters supply fresh ids.

The schema snapshot's rules form the invariant `Database.Valid`: ids come from the counters, every role references an existing actor and movie, and actor names are non-null. Every write keeps that invariant. Each write primitive fails exactly where the database would refuse the change.

The model covers these modules:

- **Controller actions.** `ActorsController` and `MoviesController` are written as pure functions from the store and the request to an HTTP outcome (`Outcomes.Response`) and the store after the action's single save. A failed save leaves the store unchanged and surfaces as `Faulted`.
- **Endpoints.** `PostActor`, `PostMovie` and `PutMovie` first run the framework's attribute validation (`RequestValidation`), then the action.
- **Older repository and service.** `DataRepository` and `ActorsService` answer with entities or `bool`s. Agreement lemmas state where they coincide with the controllers and where they do not: `DataRepository.AddMovie` never checks that the actors exist.
- **Mappings.** These are the DTO converters (without the id) and the mappers (`ActorMapper` with the id, `MovieMapper` without it).
- **Validation attributes.** These are the two attributes, with the current year as a parameter.

Lists come back in ascending id order, and `Ordering.Enumerates(ids, s)` says a list is exactly the set `s` in that order. `"Actor: " + id` needs the decimal text of an integer, so `Decimal.FromInt` is given together with its inverse.

Where the written description of the service and the code differ, the model follows the code:

- A movie's title is nullable in the schema (Movies/Migrations/20180818140511_InitialCreate.Designer.cs:49-51). It is required only by request validation, so the store admits a null title.
- The DTO returned by `CreateActor` does not carry the new id, because the converter never copies `Id`. Its `movies` is null. A later GET of the same actor shows an empty movie list instead, so the two answers differ (`ActorsController.CreatedActorIsFound`).
- `CreateMovieWithActors` checks the actors but does not check for repeated ids. The change tracker refuses the second role with the same key when it is added, before anything is saved; the model gives this as `Faulted(DuplicateKey)` with the store unchanged.
- `Movie.MovieRoles` has no initializer (Movies/Models/Movie.cs:16). A movie created with an empty actor list therefore keeps a null role collection, and the DTO answered for it has a null actor list, not an empty one.

## Model

| member | source | states |
|---|---|---|
| Database.InsertActor | Movies/Migrations/20180818140511_InitialCreate.Designer.cs:26-36 | inserting an actor fails exactly when a required name is null; on success the new id was not in use, only that actor is added, and the store stays valid |
| Database.InsertMovie | Movies/Migrations/20180818140511_InitialCreate.Designer.cs:45-83 | a movie with its roles is saved only if every listed actor exists and no pair repeats (foreign key, then composite key); on success the id is fresh and exactly one role per listed actor is added |
| Database.InsertRole | Movies/Migrations/20180818140511_InitialCreate.Designer.cs:60-83 | a role is refused when its pair is already present (duplicate key) or an end is missing (foreign key); otherwise exactly that role is added |
| Database.ReplaceMovie | Movies/Migrations/20180818140511_InitialCreate.Designer.cs:43-58 | overwriting a movie's columns changes only that row and keeps the roles and the invariant |
| Database.RemoveActor | Movies/Migrations/20180818140511_InitialCreate.Designer.cs:75-78 | deleting an actor removes it and exactly the roles with its ActorId; other actors and all movies are kept |
| Database.RemoveMovie | Movies/Migrations/20180818140511_InitialCreate.Designer.cs:80-83 | deleting a movie removes it and exactly the roles with its MovieId; other movies and all actors are kept |
| Database.CascadeIsNeeded | Movies/Migrations/20180818140511_InitialCreate.Designer.cs:75-78 | removing an actor that has roles without the cascade would leave a role whose foreign key dangles |
| Database.FilmographyIsActorRoles | Movies/Migrations/20180818140511_InitialCreate.Designer.cs:75-83 | in a valid store, the movies holding a role for an actor are exactly the movie ids of that actor's roles |
| Database.CastIsMovieRoles | Movies/Migrations/20180818140511_InitialCreate.Designer.cs:75-83 | in a valid store, the actors holding a role in a movie are exactly the actor ids of that movie's roles |
| Database.LoadActor | Movies/Controllers/ActorsController.cs:59-61 | an actor loaded with Include carries all its roles, in ascending movie id order; without Include its roles are null |
| Database.LoadMovie | Movies/Controllers/MoviesController.cs:43-45 | a movie loaded with Include carries all its roles, in ascending actor id order; without Include its roles are null |
| ActorConverter.ToDto | Movies/Converters/ActorConverter.cs:12-21 | names and birth date are copied, Movies lists the roles' MovieIds in order (null when roles are null), and Id keeps its default |
| ActorConverter.RoundTripGivenId | Movies/Converters/ActorConverter.cs:14-20 | from the DTO and the actor's id the actor is rebuilt exactly, so only the id is lost |
| ActorConverter.IdIsDropped | Movies/Converters/ActorConverter.cs:14-20 | actors that differ only in id give the same DTO |
| MovieConverter.ToDto | Movies/Converters/MovieConverter.cs:12-21 | title, year and genre are copied, Actors lists the roles' ActorIds in order (null when roles are null), and Id keeps its default |
| MovieConverter.RoundTripGivenId | Movies/Converters/MovieConverter.cs:14-20 | from the DTO and the movie's id the movie is rebuilt exactly |
| ActorMapper.ToDto | Movies/Mappers/ActorMapper.cs:9-19 | the DTO's Id is the actor's Id; names, birth date and the roles' MovieIds are copied in order, null staying null |
| ActorMapper.RoundTrip | Movies/Mappers/ActorMapper.cs:11-18 | the actor is rebuilt exactly from its DTO alone |
| ActorMapper.DiffersFromConverterOnlyInId | Movies/Mappers/ActorMapper.cs:13 | the mapper's DTO is the converter's with the actor's id filled in |
| MovieMapper.ToDto | Movies/Mappers/MovieMapper.cs:9-18 | title, year, genre and the roles' ActorIds are copied in order, null staying null; Id keeps its default |
| MovieMapper.SameAsConverter | Movies/Mappers/MovieMapper.cs:11-17 | the movie mapper and the movie converter give the same DTO for every movie |
| MovieMapper.IdIsDropped | Movies/Mappers/MovieMapper.cs:11-17 | movies that differ only in id give the same DTO |
| NotEmptyCollection.IsValid | Movies/Attributes/NotEmptyListValidationAttribute.cs:13-21 | a value passes exactly when it can be enumerated and enumerating it visits some element; null and non-enumerables fail |
| NotEmptyCollection.ShapeDoesNotMatter | Movies/Attributes/NotEmptyListValidationAttribute.cs:15-20 | the count test for collections and the first-element test for other enumerables agree: the same elements pass or fail either way, and pass exactly when there is at least one |
| NotEmptyCollection.FormatErrorMessage | Movies/Attributes/NotEmptyListValidationAttribute.cs:8-11 | the message is the field name followed by " collection cannot be null or empty." |
| NotEmptyCollection.FormatErrorMessageInjective | Movies/Attributes/NotEmptyListValidationAttribute.cs:8-11 | different field names give different messages |
| FutureYearValidation.IsValid | Movies/Attributes/FutureYearValidationAttribute.cs:16-21 | a year passes exactly when it is not after the current year, which is a parameter in place of the clock |
| FutureYearValidation.CurrentYearIsTheBoundary | Movies/Attributes/FutureYearValidationAttribute.cs:16-21 | the current year passes and the next year fails |
| FutureYearValidation.DownwardClosed | Movies/Attributes/FutureYearValidationAttribute.cs:20 | if a year passes, every earlier year passes |
| FutureYearValidation.StaysValid | Movies/Attributes/FutureYearValidationAttribute.cs:20 | a year that passes keeps passing as the current year advances |
| FutureYearValidation.FormatErrorMessage | Movies/Attributes/FutureYearValidationAttribute.cs:11-14 | the message is "Field ", the field name, then " is a future year which is not allowed" |
| FutureYearValidation.FormatErrorMessageInjective | Movies/Attributes/FutureYearValidationAttribute.cs:11-14 | different field names give different messages |
| RequestValidation.AsValue | Movies/Attributes/NotEmptyListValidationAttribute.cs:15-17 | an actor id array reaches the attribute as a collection and a missing array as null, so the actor list passes the non-empty check exactly when it is present and holds at least one id |
| RequestValidation.ValidCreateMovieRequest | Movies/Dto/CreateMovieDto.cs:8-14 | a movie request that passes validation has a non-empty title, a year not after the current one and a non-empty actor list |
| RequestValidation.ActorRequestCases | Movies.UnitTesting/Integration/ActorsControllerIntegrationTests.cs:20-48 | an actor request passes with both names present and fails when either name is empty or null |
| RequestValidation.FutureYearRejected | Movies.UnitTesting/Integration/MoviesControllerIntegrationTests.cs:24 | year 3000 is rejected whatever the title and actor list, as long as the clock is before 3000 |
| ActorsController.GetActors | Movies/Controllers/ActorsController.cs:39-46 | always 200, with exactly the converted DTOs of all actors, roles loaded, one per actor in ascending id order |
| ActorsController.GetActor | Movies/Controllers/ActorsController.cs:57-67 | 404 exactly when the actor is absent; otherwise its fields, with Movies listing exactly its movies in ascending order |
| ActorsController.CastListedInMovieDto | Movies/Controllers/ActorsController.cs:85-89 | for any stored movie loaded with its roles, the DTO's actor list is present and names an actor exactly when that actor has a role in the movie |
| ActorsController.GetActorFilmography | Movies/Controllers/ActorsController.cs:78-91 | 404 exactly when the actor is absent; otherwise exactly the converted DTOs of the movies having a role for the actor, one per movie in ascending id order |
| ActorsController.CreateActor | Movies/Controllers/ActorsController.cs:102-117 | invalid model state answers 400 with no insert; otherwise exactly one actor with the request's fields is added and 201 echoes them with the default id and null movies |
| ActorsController.CreateActorAsWritten | Movies/Controllers/ActorsController.cs:108-116 | the action as written stores exactly what the intended action stores, but where that one answers 201 it fails with no matching route, since the link to GET /actors/{actorId} is given the route value "id" |
| ActorsController.CreateActorAsWrittenFailsAfterSaving | Movies/Controllers/ActorsController.cs:54-116 | for every request that passes validation, the as-written action fails after the new actor is stored, while the intended action answers 201 |
| ActorsController.PostActor | Movies/Dto/CreateActorDto.cs:8-11 | a request with both names required passes to the action, and the answer and store are the action's, which creates the actor; any other request answers 400 with the store unchanged |
| ActorsController.LinkActorWithMovie | Movies/Controllers/ActorsController.cs:131-155 | 400 for an id below 1, then 404 "actorId", then 404 "movieId", each with no change; otherwise 200 and exactly that role added if absent |
| ActorsController.DeleteActor | Movies/Controllers/ActorsController.cs:166-177 | 404 with no change for a missing id; otherwise 204 and the actor and its roles removed |
| ActorsController.LinkIsIdempotent | Movies/Controllers/ActorsController.cs:146-154 | linking the same pair twice answers the same and leaves the store as the first link did |
| ActorsController.LinkExtendsFilmography | Movies/Controllers/ActorsController.cs:146-154 | after a successful link the movie joins the actor's filmography and nothing else does |
| ActorsController.CreatedActorIsFound | Movies/Controllers/ActorsController.cs:110-116 | GET after a successful POST returns the request's fields with an empty movie list |
| ActorsController.DeletedActorIsGone | Movies/Controllers/ActorsController.cs:168-176 | after DELETE, GET and the filmography answer 404 and the actor is in no cast |
| MoviesController.GetMovie | Movies/Controllers/MoviesController.cs:41-51 | 404 exactly when the movie is absent; otherwise its title, year and genre with Actors listing exactly its cast |
| MoviesController.GetMovies | Movies/Controllers/MoviesController.cs:59-65 | always 200, with exactly the mapped DTOs of all movies, roles loaded, one per movie in ascending id order |
| MoviesController.GetMoviesByYear | Movies/Controllers/MoviesController.cs:74-81 | always 200, with exactly the mapped DTOs of the movies whose year equals the argument, one per movie in ascending id order |
| MoviesController.YearSearchIsFilteredList | Movies/Controllers/MoviesController.cs:59-81 | the year search returns the full movie list filtered by year, in the same order |
| MoviesController.GetActorsFromMovie | Movies/Controllers/MoviesController.cs:92-106 | 404 exactly when the movie is absent; otherwise exactly the mapped DTOs of the cast, roles loaded, one per actor in ascending id order, so each carries its id, stored fields and all its movie ids |
| MoviesController.FirstMissingActor | Movies/Controllers/MoviesController.cs:121-127 | the scan stops at the first listed actor id without a row, all earlier ids existing, or runs to the end when all exist |
| MoviesController.FixedUpRoles | Movies/Controllers/MoviesController.cs:128-135 | the new movie's role collection after the roles are attached: null when no actor is listed, since the collection has no initializer, otherwise one role per listed actor id in request order, each for the new movie |
| MoviesController.CreateMovieWithActors | Movies/Controllers/MoviesController.cs:119-139 | 404 "Actor: id" for the first missing actor with no write; otherwise one new movie with the request's fields and one role per listed id, in one save, and 201 with their DTO, whose actor list is null when the request's list is empty |
| MoviesController.PostMovie | Movies/Dto/CreateMovieDto.cs:8-14 | an invalid body answers 400 with no change; a valid one runs the action, which then never meets a null list |
| MoviesController.UpdateMovie | Movies/Controllers/MoviesController.cs:153-168 | 404 with no change for a missing id; otherwise 204 with only title, year and genre replaced, id and roles kept |
| MoviesController.PutMovie | Movies/Dto/UpdateMovieDto.cs:8-11 | an invalid body answers 400 with no change, even for a missing id; a valid one runs the action |
| MoviesController.DeleteMovie | Movies/Controllers/MoviesController.cs:179-190 | 404 with no change for a missing id; otherwise 204 and the movie and its roles removed |
| MoviesController.CreatedMovieIsFound | Movies/Controllers/MoviesController.cs:128-138 | GET after a successful POST returns the request's title, year and genre, with exactly the requested actors |
| MoviesController.UpdatedMovieIsFound | Movies/Controllers/MoviesController.cs:160-167 | GET after a successful PUT returns the new title, year and genre, with the cast unchanged |
| MoviesController.DeletedMovieIsGone | Movies/Controllers/MoviesController.cs:181-189 | after DELETE, GET and the cast query answer 404 and the movie is in no filmography |
| MoviesController.MissingActorMessageNamesTheActor | Movies/Controllers/MoviesController.cs:126 | different missing actors get different 404 messages |
| Decimal.FromIntRoundTrip | Movies/Controllers/MoviesController.cs:126 | the decimal text of an integer is a numeral that reads back as that integer |
| Decimal.FromIntInjective | Movies/Controllers/MoviesController.cs:126 | different integers have different decimal texts |
| DataRepository.AddActor | Movies/Repository/DataRepository.cs:20-32 | exactly one actor with the given fields is inserted and returned with its new id, or a null name fails with no change |
| DataRepository.DeleteActor | Movies/Repository/DataRepository.cs:34-45 | false with no change for a missing id; otherwise true and the actor and its roles removed |
| DataRepository.GetActorFilmography | Movies/Repository/DataRepository.cs:57-62 | the movies, roles included, that have a role for the id, with no existence check |
| DataRepository.Link | Movies/Repository/DataRepository.cs:64-84 | true exactly when both ends exist, with no range check; the role is then present, added only if absent; false changes nothing |
| DataRepository.LinkIsIdempotent | Movies/Repository/DataRepository.cs:76-83 | linking the same pair twice answers the same and leaves the store as the first link did |
| DataRepository.DeleteMovie | Movies/Repository/DataRepository.cs:91-102 | false with no change for a missing id; otherwise true and the movie and its roles removed |
| DataRepository.GetActorsFromMovie | Movies/Repository/DataRepository.cs:104-109 | the actors, roles included, that have a role in the movie, with no existence check |
| DataRepository.GetMovies | Movies/Repository/DataRepository.cs:116-119 | exactly the movies, in ascending id order, whose entity with its roles satisfies the predicate; the entities come back without their roles |
| DataRepository.AddMovie | Movies/Repository/DataRepository.cs:121-144 | with no actor check, one movie and one role per id are saved together, or the save fails on a missing actor (foreign key), a repeat (duplicate key) or a null list, with no change; the returned movie's roles are those added, each for the new movie's id, in request order, and null for an empty list |
| DataRepository.LinkAgreesWithController | Movies/Repository/DataRepository.cs:64-84 | on a valid store the repository's link and the controller's action make the same change, and the repository answers true exactly when the controller answers 200 |
| DataRepository.FilmographyOfMissingActorIsEmpty | Movies/Repository/DataRepository.cs:57-62 | for a missing actor the repository returns an empty list where the controller answers 404 |
| DataRepository.AddActorAgreesWithController | Movies/Repository/DataRepository.cs:20-32 | the repository and the controller add an actor identically, under the same id |
| DataRepository.DeletesAgreeWithControllers | Movies/Repository/DataRepository.cs:34-102 | both deletes change the store as the controllers' deletes do, answering true exactly when those answer 204 |
| DataRepository.AddMovieAgreesWithController | Movies/Repository/DataRepository.cs:121-144 | with every actor present both create the same movie and roles; with one missing, the repository fails on the foreign key and the controller answers 404, neither writing |
| DataRepository.YearPredicateSelectsSearch | Movies/Repository/DataRepository.cs:116-119 | filtering by the year predicate lists the same movies, in the same order, as the controller's year search: the DTO of each returned movie, loaded with its roles, is the search's DTO at the same index |
| ActorsService.AddActor | Movies/Services/ActorsService.cs:22-34 | one actor with the given names and birth date is added in one save and returned with its new id |
| ActorsService.DeleteActor | Movies/Services/ActorsService.cs:36-47 | false and no removal for a missing id; otherwise true and the actor and its roles removed |
| ActorsService.GetActors | Movies/Services/ActorsService.cs:49-52 | every actor in the store, each once, with its roles |
| ActorsService.AgreesWithRepository | Movies/Services/ActorsService.cs:22-47 | adding and deleting through the service give the same answer and store as through the repository |
| ActorsService.ControllerListsServiceActors | Movies/Services/ActorsService.cs:49-52 | the controller's actor list is the service's list, converted element by element |

## Left out

- Hosting, dependency injection, the database provider, the `IRepository` pass-throughs and `async`: the store is modelled directly, and each action's staged changes plus its single save are one atomic step.
- The catch-all middleware that turns an escaping exception into a 500 body: an escaping exception is the `Faulted` outcome. The store is left unchanged, except after the link failure under Findings, which happens after the save.
- Concurrency, including the race between `Link`'s existence checks and its insert: every action runs alone on one store.
- Entity Framework relationship fix-up is assumed, not modelled. After `CreateMovieWithActors` and `DataRepository.AddMovie` the new movie's roles are the added roles, each carrying the new movie's id, in request order, or null when none were added. A freshly constructed actor's roles are null.
- List order from the database is unspecified. The model fixes ascending id order, and roles loaded with an entity come in ascending order of their other id.
- Identity columns are 32-bit and could overflow. Fresh ids are unbounded integers here.
- `int.ToString` can depend on the culture's negative sign. `Decimal.FromInt` always uses "-". The printed id is the missing actor's, which can be any integer, negative ones included.
- `FutureYearValidationAttribute.IsValid` casts its argument to `int` and would throw for another type. The model gives it an integer year only, and it takes the current year as a parameter instead of reading `DateTime.Today`.
- `CreateMovieDto` spells the attribute `[NotNullOrEmptyCollection]`, while the class shown is `NotEmptyCollectionAttribute`. The model assumes the two are the same attribute.
- `CreatedAtAction` route values are reduced to the one name each action passes, checked against the target template's parameter (`Outcomes.LinkGenerates`). The `Created` outcome carries the new id as its location.
- `DataRepository.GetActor`, `GetMovie`, `GetActors` and `GetMovies()` are plain key or full-table reads. They are covered by `Database.LoadActor`/`LoadMovie` and the controllers' list actions.
- `RequestValidation.Required` follows `[Required]` with empty strings disallowed. String-length and other attributes on the DTOs are not modelled.

## Findings

| source | as written | input that shows it | evidently intended | confidence | as-written member | corrected member |
|---|---|---|---|---|---|---|
| Movies/Controllers/ActorsController.cs:116 | `CreatedAtAction(nameof(GetActor), new { id = newActor.Id }, …)` while GetActor's template is `{actorId}` (line 54), so no route matches and building the link throws after `SaveAsync` | any valid body, e.g. first name "Al" and last name "Pacino": the actor is stored and the request fails | route value `actorId`, as MoviesController.cs:138 passes `movieId` for `{movieId}`: 201 with a link at which GET finds the new actor | not executed; medium: follows from how the framework builds created-at links, and the integration test at Movies.UnitTesting/Integration/ActorsControllerIntegrationTests.cs:28 expects 201 | ActorsController.CreateActorAsWritten, ActorsController.CreateActorAsWrittenFailsAfterSaving | ActorsController.CreateActor, with ActorsController.CreatedActorIsFound |

=== FILE: actor_converter.dfy ===
/** `Movies.Converters.ActorConverter`, the actor mapping `ActorsController` uses. */
module ActorConverter {
  import opened Wrappers
  import opened Entities
  import opened Dto

  /** Copies the names, the birth date and the roles' movie ids; `Id` is never assigned. */
  function ToDto(actor: Actor): (d: ActorDto)
    ensures d.id == DefaultId
    ensures d.firstName == actor.firstName && d.lastName == actor.lastName
    ensures d.birthDate == actor.birthDate
    ensures d.movies.None? <==> actor.movieRoles.None?
    ensures d.movies.Some? ==>
      |d.movies.value| == |actor.movieRoles.value| &&
      forall i :: 0 <= i < |d.movies.value| ==> d.movies.value[i] == actor.movieRoles.value[i].movieId
  {
    ActorDto(DefaultId, actor.firstName, actor.lastName, actor.birthDate, MovieIdsOf(actor.movieRoles))
  }

  /** Only the id is lost: supplied from elsewhere, it rebuilds the actor exactly. */
  lemma RoundTripGivenId(actor: Actor)
    requires RolesOfActor(actor.movieRoles, actor.id)
    ensures ActorFromDto(ToDto(actor), actor.id) == actor
  {
    var a' := ActorFromDto(ToDto(actor), actor.id);
    if actor.movieRoles.Some? {
      assert a'.movieRoles.value == actor.movieRoles.value;
    }
  }

  /** Two actors that differ only in id convert to the same DTO. */
  lemma IdIsDropped(actor: Actor, otherId: int)
    ensures ToDto(actor) == ToDto(actor.(id := otherId))
  {
  }
}

=== FILE: actor_mapper.dfy ===
/** `Movies.Mappers.ActorMapper`, the actor mapping `MoviesController` uses. */
module ActorMapper {
  import opened Wrappers
  import opened Entities
  import opened Dto
  import ActorConverter

  /** Copies the id, the names, the birth date and the roles' movie ids. */
  function ToDto(actor: Actor): (d: ActorDto)
    ensures d.id == actor.id
    ensures d.firstName == actor.firstName && d.lastName == actor.lastName
    ensures d.birthDate == actor.birthDate
    ensures d.movies.None? <==> actor.movieRoles.None?
    ensures d.movies.Some? ==>
      |d.movies.value| == |actor.movieRoles.value| &&
      forall i :: 0 <= i < |d.movies.value| ==> d.movies.value[i] == actor.movieRoles.value[i].movieId
  {
    ActorDto(actor.id, actor.firstName, actor.lastName, actor.birthDate, MovieIdsOf(actor.movieRoles))
  }

  /** Nothing is lost: the DTO alone rebuilds the actor and its roles. */
  lemma RoundTrip(actor: Actor)
    requires RolesOfActor(actor.movieRoles, actor.id)
    ensures ActorFromDto(ToDto(actor), ToDto(actor).id) == actor
  {
    var a' := ActorFromDto(ToDto(actor), actor.id);
    if actor.movieRoles.Some? {
      assert a'.movieRoles.value == actor.movieRoles.value;
    }
  }

  /** The two actor mappings differ in the id alone. */
  lemma DiffersFromConverterOnlyInId(actor: Actor)
    ensures ToDto(actor) == ActorConverter.ToDto(actor).(id := actor.id)
    ensures actor.id != DefaultId ==> ToDto(actor) != ActorConverter.ToDto(actor)
  {
  }
}

=== FILE: actors_controller.dfy ===
/**
 * `Movies.Controllers.ActorsController`. Each action maps the store and its
 * route or body arguments to a response and the store after the action's
 * single save; read-only actions return only the response.
 */
module ActorsController {
  import opened Wrappers
  import opened Entities
  import opened Dto
  import opened Outcomes
  import opened Database
  import opened Ordering
  import ActorConverter
  import MovieConverter
  import RequestValidation

  /** DTOs of the listed actors, roles loaded, in list order. */
  function ActorDtos(c: Catalog, ids: seq<int>): (ds: seq<ActorDto>)
    requires forall id :: id in ids ==> id in c.actors
    ensures |ds| == |ids|
    ensures forall i :: 0 <= i < |ids| ==> ds[i] == ActorConverter.ToDto(LoadActor(c, ids[i], true))
  {
    seq(|ids|, i requires 0 <= i < |ids| => ActorConverter.ToDto(LoadActor(c, ids[i], true)))
  }

  /** DTOs of the listed movies, roles loaded, in list order. */
  function MovieDtos(c: Catalog, ids: seq<int>): (ds: seq<MovieDto>)
    requires forall id :: id in ids ==> id in c.movies
    ensures |ds| == |ids|
    ensures forall i :: 0 <= i < |ids| ==> ds[i] == MovieConverter.ToDto(LoadMovie(c, ids[i], true))
  {
    seq(|ids|, i requires 0 <= i < |ids| => MovieConverter.ToDto(LoadMovie(c, ids[i], true)))
  }

  /** GET /actors: one DTO per actor, always 200. */
  function GetActors(c: Catalog): (r: Response<seq<ActorDto>>)
    ensures r.Ok?
    ensures ListsActors(c, r.body, c.actors.Keys, ActorConverter.ToDto)
    ensures |r.body| == |c.actors|
    ensures forall id :: id in c.actors ==> ActorConverter.ToDto(LoadActor(c, id, true)) in r.body
  {
    var ids := AscendingElements(c.actors.Keys);
    var ds := ActorDtos(c, ids);
    assert Enumerates(ids, c.actors.Keys) && |ids| == |ds|;
    ListedActorsCover(c, ds, c.actors.Keys, ActorConverter.ToDto);
    Ok(ds)
  }

  /** GET /actors/{actorId}: 404 without a body when no such actor, else its DTO with all its movies. */
  function GetActor(c: Catalog, actorId: int): (r: Response<ActorDto>)
    ensures r.Ok? || r == NotFound(None)
    ensures r.Ok? <==> actorId in c.actors
    ensures r.Ok? ==>
      && r.body.id == DefaultId
      && ActorRow(r.body.firstName, r.body.lastName, r.body.birthDate) == c.actors[actorId]
      && r.body.movies.Some?
      && Enumerates(r.body.movies.value, MovieIdsOfActor(c, actorId))
  {
    if actorId !in c.actors then NotFound(None)
    else
      var d := ActorConverter.ToDto(LoadActor(c, actorId, true));
      assert d.movies.value == MovieIdsIn(ActorRoles(c, actorId));
      Ok(d)
  }

  /** A loaded movie's DTO lists an actor exactly when that actor has a role in the movie. */
  lemma CastListedInMovieDto(c: Catalog, movieId: int, actorId: int)
    requires movieId in c.movies
    ensures var d := MovieConverter.ToDto(LoadMovie(c, movieId, true));
      d.actors.Some? && (actorId in d.actors.value <==> MovieRole(movieId, actorId) in c.roles)
  {
    var d := MovieConverter.ToDto(LoadMovie(c, movieId, true));
    var rs := MovieRoles(c, movieId);
    assert d.actors.value == ActorIdsIn(rs);
    if MovieRole(movieId, actorId) in c.roles {
      assert actorId in ActorIdsOfMovie(c, movieId);
    }
    if actorId in d.actors.value {
      assert actorId in ActorIdsOfMovie(c, movieId);
      var r :| r in c.roles && r.movieId == movieId && r.actorId == actorId;
      assert r == MovieRole(movieId, actorId);
    }
  }

  /**
   * GET /actors/{actorId}/movies: 404 when the actor does not exist, else
   * one DTO per movie in which the actor has a role.
   */
  function GetActorFilmography(c: Catalog, actorId: int): (r: Response<seq<MovieDto>>)
    ensures r.Ok? || r == NotFound(None)
    ensures r.Ok? <==> actorId in c.actors
    ensures r.Ok? ==> ListsMovies(c, r.body, FilmographyOf(c, actorId), MovieConverter.ToDto)
    ensures r.Ok? ==> |r.body| == |FilmographyOf(c, actorId)|
    ensures r.Ok? ==> forall m :: m in FilmographyOf(c, actorId) ==>
      MovieConverter.ToDto(LoadMovie(c, m, true)) in r.body
    ensures r.Ok? ==> forall d :: d in r.body ==> d.actors.Some? && actorId in d.actors.value
  {
    if actorId !in c.actors then NotFound(None)
    else
      var ids := AscendingElements(FilmographyOf(c, actorId));
      FilmographyDtos(c, ids, actorId);
      Ok(MovieDtos(c, ids))
  }

  /** The DTOs of the filmography, listed in ascending id order, are exactly the filmography's DTOs and all cast the actor. */
  lemma FilmographyDtos(c: Catalog, ids: seq<int>, actorId: int)
    requires Enumerates(ids, FilmographyOf(c, actorId))
    ensures forall m :: m in ids ==> m in c.movies
    ensures ListsMovies(c, MovieDtos(c, ids), FilmographyOf(c, actorId), MovieConverter.ToDto)
    ensures |MovieDtos(c, ids)| == |FilmographyOf(c, actorId)|
    ensures forall m :: m in FilmographyOf(c, actorId) ==>
      MovieConverter.ToDto(LoadMovie(c, m, true)) in MovieDtos(c, ids)
    ensures forall d :: d in MovieDtos(c, ids) ==> d.actors.Some? && actorId in d.actors.value
  {
    MovieDtosCastActor(c, ids, actorId);
    assert Enumerates(ids, FilmographyOf(c, actorId)) && |ids| == |MovieDtos(c, ids)|;
    ListedMoviesCover(c, MovieDtos(c, ids), FilmographyOf(c, actorId), MovieConverter.ToDto);
  }

  /** When every listed movie casts the actor, every DTO in the list names the actor. */
  lemma MovieDtosCastActor(c: Catalog, ids: seq<int>, actorId: int)
    requires forall m :: m in ids ==> m in c.movies && MovieRole(m, actorId) in c.roles
    ensures forall d :: d in MovieDtos(c, ids) ==> d.actors.Some? && actorId in d.actors.value
  {
    var ds := MovieDtos(c, ids);
    forall d | d in ds ensures d.actors.Some? && actorId in d.actors.value {
      var k :| 0 <= k < |ds| && ds[k] == d;
      assert ids[k] in ids;
      CastListedInMovieDto(c, ids[k], actorId);
    }
  }

  /**
   * POST /actors: 400 when the model state is invalid; otherwise one new
   * actor with the requested names and birth date, and 201 with its DTO.
   * The DTO comes from the converter, so it carries no id, and the new
   * actor's role collection was never loaded, so it carries no movie list.
   */
  function CreateActor(c: Catalog, request: CreateActorDto, modelValid: bool): (r: (Response<ActorDto>, Catalog))
    requires Valid(c)
    ensures Valid(r.1)
    ensures !modelValid ==> r == (BadRequest, c)
    ensures modelValid && request.firstName.Some? && request.lastName.Some? ==> r.0.Created?
    ensures modelValid && (request.firstName.None? || request.lastName.None?) ==>
      r == (Faulted(RequiredColumnNull), c)
    ensures r.0.Created? ==>
      && r.0.location !in c.actors
      && r.1.actors == c.actors[r.0.location := ActorRow(request.firstName, request.lastName, request.birthDate)]
      && r.1.movies == c.movies
      && r.1.roles == c.roles
      && r.0.body == ActorDto(DefaultId, request.firstName, request.lastName, request.birthDate, None)
  {
    if !modelValid then (BadRequest, c)
    else
      match InsertActor(c, ActorRow(request.firstName, request.lastName, request.birthDate))
      case Failure(f) => (Faulted(f), c)
      case Success(ins) =>
        var actor := Actor(ins.id, request.firstName, request.lastName, request.birthDate, None);
        (Created(ins.id, ActorConverter.ToDto(actor)), ins.store)
  }

  /** The parameter of GET /actors/{actorId}, which a created actor's link targets. */
  const GetActorRouteParameter: string := "actorId"

  /** The route value name POST /actors hands to `CreatedAtAction`. */
  const CreateActorRouteValue: string := "id"

  /**
   * POST /actors as written: the actor is saved first, and only then is
   * the link to GET /actors/{actorId} built from the route value "id".
   * That value fills no parameter of the template, so building the link
   * throws after the save: the request fails with the actor stored.
   * `CreateActor` is the intended action, whose link names the new id.
   */
  function CreateActorAsWritten(c: Catalog, request: CreateActorDto, modelValid: bool): (r: (Response<ActorDto>, Catalog))
    requires Valid(c)
    ensures Valid(r.1)
    ensures r.1 == CreateActor(c, request, modelValid).1
    ensures CreateActor(c, request, modelValid).0.Created? ==> r.0 == Faulted(NoRouteMatched)
    ensures !CreateActor(c, request, modelValid).0.Created? ==> r.0 == CreateActor(c, request, modelValid).0
  {
    if !modelValid then (BadRequest, c)
    else
      match InsertActor(c, ActorRow(request.firstName, request.lastName, request.birthDate))
      case Failure(f) => (Faulted(f), c)
      case Success(ins) =>
        var actor := Actor(ins.id, request.firstName, request.lastName, request.birthDate, None);
        var answer := if LinkGenerates(CreateActorRouteValue, GetActorRouteParameter)
          then Created(ins.id, ActorConverter.ToDto(actor))
          else Faulted(NoRouteMatched);
        (answer, ins.store)
  }

  /**
   * The as-written action answers a valid request with a failure although
   * the new actor is already stored; the intended action answers 201.
   */
  lemma CreateActorAsWrittenFailsAfterSaving(c: Catalog, request: CreateActorDto)
    requires Valid(c)
    requires RequestValidation.CreateActorValid(request)
    ensures CreateActorAsWritten(c, request, true).0 == Faulted(NoRouteMatched)
    ensures c.actors.Keys < CreateActorAsWritten(c, request, true).1.actors.Keys
    ensures CreateActor(c, request, true).0.Created?
  {
    var r := CreateActor(c, request, true);
    assert r.0.location in r.1.actors.Keys - c.actors.Keys;
  }

  /** POST /actors as the framework runs it: the body is validated, then the action runs. */
  function PostActor(c: Catalog, request: CreateActorDto): (r: (Response<ActorDto>, Catalog))
    requires Valid(c)
    ensures Valid(r.1)
    ensures r.0.Created? <==> RequestValidation.CreateActorValid(request)
    ensures !r.0.Created? ==> r == (BadRequest, c)
    ensures RequestValidation.CreateActorValid(request) ==> r == CreateActor(c, request, true)
  {
    CreateActor(c, request, RequestValidation.CreateActorValid(request))
  }

  /**
   * POST /actors/{actorId}/movies/{movieId}: 400 for an id below 1; 404
   * naming "actorId", then "movieId", when that row is missing; otherwise
   * 200, adding the role only when it is not already there.
   */
  function LinkActorWithMovie(c: Catalog, actorId: int, movieId: int): (r: (Response<()>, Catalog))
    requires Valid(c)
    ensures Valid(r.1)
    ensures actorId < 1 || movieId < 1 ==> r == (BadRequest, c)
    ensures actorId >= 1 && movieId >= 1 && actorId !in c.actors ==> r == (NotFound(Some("actorId")), c)
    ensures actorId >= 1 && movieId >= 1 && actorId in c.actors && movieId !in c.movies ==>
      r == (NotFound(Some("movieId")), c)
    ensures actorId >= 1 && movieId >= 1 && actorId in c.actors && movieId in c.movies ==>
      && r.0 == Ok(())
      && r.1.roles == c.roles + {MovieRole(movieId, actorId)}
      && r.1.actors == c.actors
      && r.1.movies == c.movies
      && r.1.nextActorId == c.nextActorId
      && r.1.nextMovieId == c.nextMovieId
  {
    if actorId < 1 || movieId < 1 then (BadRequest, c)
    else if actorId !in c.actors then (NotFound(Some("actorId")), c)
    else if movieId !in c.movies then (NotFound(Some("movieId")), c)
    else if MovieRole(movieId, actorId) in c.roles then (Ok(()), c)
    else
      match InsertRole(c, MovieRole(movieId, actorId))
      case Failure(f) => (Faulted(f), c)
      case Success(s) => (Ok(()), s)
  }

  /** DELETE /actors/{actorId}: 404 when absent; otherwise the actor and its roles are removed, 204. */
  function DeleteActor(c: Catalog, actorId: int): (r: (Response<()>, Catalog))
    requires Valid(c)
    ensures Valid(r.1)
    ensures actorId !in c.actors ==> r == (NotFound(None), c)
    ensures actorId in c.actors ==>
      && r.0 == NoContent
      && r.1.actors.Keys == c.actors.Keys - {actorId}
      && (forall a :: a in r.1.actors ==> r.1.actors[a] == c.actors[a])
      && (forall role :: role in r.1.roles <==> role in c.roles && role.actorId != actorId)
      && r.1.movies == c.movies
  {
    if actorId !in c.actors then (NotFound(None), c)
    else (NoContent, RemoveActor(c, actorId))
  }

  // ------------------------------------------------------------ properties

  /** Linking the same pair again answers the same and changes nothing. */
  lemma LinkIsIdempotent(c: Catalog, actorId: int, movieId: int)
    requires Valid(c)
    ensures var (r1, c1) := LinkActorWithMovie(c, actorId, movieId);
      LinkActorWithMovie(c1, actorId, movieId) == (r1, c1)
  {
    var (r1, c1) := LinkActorWithMovie(c, actorId, movieId);
    if actorId >= 1 && movieId >= 1 && actorId in c.actors && movieId in c.movies {
      assert MovieRole(movieId, actorId) in c1.roles;
      assert c1.roles + {MovieRole(movieId, actorId)} == c1.roles;
    }
  }

  /** After a successful link the movie is in the actor's filmography, and nothing else joins it. */
  lemma LinkExtendsFilmography(c: Catalog, actorId: int, movieId: int)
    requires Valid(c)
    requires LinkActorWithMovie(c, actorId, movieId).0.Ok?
    ensures var c1 := LinkActorWithMovie(c, actorId, movieId).1;
      FilmographyOf(c1, actorId) == FilmographyOf(c, actorId) + {movieId}
  {
  }

  /** An actor created by POST is then found by GET with the same fields and no movies. */
  lemma CreatedActorIsFound(c: Catalog, request: CreateActorDto)
    requires Valid(c)
    requires PostActor(c, request).0.Created?
    ensures var (r, c1) := PostActor(c, request);
      GetActor(c1, r.location) == Ok(ActorDto(DefaultId, request.firstName, request.lastName, request.birthDate, Some([])))
  {
    var (r, c1) := PostActor(c, request);
    var id := r.location;
    assert MovieIdsOfActor(c1, id) == {} by {
      forall role | role in c1.roles ensures role.actorId != id {
        assert role in c.roles;
      }
    }
    var d := GetActor(c1, id).body;
    EnumerationOfEmpty(d.movies.value, {});
  }

  /** After DELETE the actor is not found and appears in no movie's cast. */
  lemma DeletedActorIsGone(c: Catalog, actorId: int)
    requires Valid(c)
    ensures var c1 := DeleteActor(c, actorId).1;
      && GetActor(c1, actorId) == NotFound(None)
      && GetActorFilmography(c1, actorId) == NotFound(None)
      && forall m :: actorId !in CastOf(c1, m)
  {
  }
}

=== FILE: actors_service.dfy ===
/**
 * `Movies.Services.ActorsService`: the actor operations over the generic
 * repository plus an explicit save, one save per write.
 */
module ActorsService {
  import opened Wrappers
  import opened Entities
  import opened Dto
  import opened Outcomes
  import opened Database
  import opened Ordering
  import ActorConverter
  import ActorsController
  import DataRepository

  /** Adds one actor with the given names and birth date, saves once, and returns it. */
  function AddActor(c: Catalog, firstName: Text, lastName: Text, birthDate: Date): (r: (Result<Actor, Fault>, Catalog))
    requires Valid(c)
    ensures Valid(r.1)
    ensures r.0.Failure? <==> firstName.None? || lastName.None?
    ensures r.0.Failure? ==> r == (Failure(RequiredColumnNull), c)
    ensures r.0.Success? ==>
      var a := r.0.value;
      && a.id !in c.actors
      && a.firstName == firstName && a.lastName == lastName && a.birthDate == birthDate
      && r.1.actors == c.actors[a.id := ActorRow(firstName, lastName, birthDate)]
      && r.1.movies == c.movies
      && r.1.roles == c.roles
  {
    var actor := Actor(0, firstName, lastName, birthDate, None);
    match InsertActor(c, ActorRow(actor.firstName, actor.lastName, actor.birthDate))
    case Failure(f) => (Failure(f), c)
    case Success(ins) => (Success(actor.(id := ins.id)), ins.store)
  }

  /** Removes the actor and its roles and answers true; false and no change when there is none. */
  function DeleteActor(c: Catalog, actorId: int): (r: (bool, Catalog))
    requires Valid(c)
    ensures Valid(r.1)
    ensures r.0 <==> actorId in c.actors
    ensures !r.0 ==> r.1 == c
    ensures r.0 ==>
      && r.1.actors.Keys == c.actors.Keys - {actorId}
      && (forall a :: a in r.1.actors ==> r.1.actors[a] == c.actors[a])
      && (forall role :: role in r.1.roles <==> role in c.roles && role.actorId != actorId)
      && r.1.movies == c.movies
  {
    if actorId !in c.actors then (false, c)
    else (true, RemoveActor(c, actorId))
  }

  /** Every actor, roles included. */
  function GetActors(c: Catalog): (as_: seq<Actor>)
    ensures Enumerates(DataRepository.ActorIds(as_), c.actors.Keys)
    ensures forall a :: a in as_ ==> a.id in c.actors && a == LoadActor(c, a.id, true)
  {
    var ids := AscendingElements(c.actors.Keys);
    DataRepository.ActorsOfKeepIds(c, ids);
    DataRepository.ActorsOf(c, ids)
  }

  /** The service and the repository make the same writes with the same answers. */
  lemma AgreesWithRepository(c: Catalog, firstName: Text, lastName: Text, birthDate: Date, actorId: int)
    requires Valid(c)
    ensures AddActor(c, firstName, lastName, birthDate) == DataRepository.AddActor(c, firstName, lastName, birthDate)
    ensures DeleteActor(c, actorId) == DataRepository.DeleteActor(c, actorId)
  {
  }

  /** The controller's actor list is the service's list, converted one by one. */
  lemma ControllerListsServiceActors(c: Catalog)
    ensures var as_ := GetActors(c);
      var ds := ActorsController.GetActors(c).body;
      && |ds| == |as_|
      && forall i :: 0 <= i < |as_| ==> ds[i] == ActorConverter.ToDto(as_[i])
  {
    var ids := AscendingElements(c.actors.Keys);
    var as_ := GetActors(c);
    EnumerationIsUnique(DataRepository.ActorIds(as_), ids, c.actors.Keys);
    var ds := ActorsController.GetActors(c).body;
    assert ds == ActorsController.ActorDtos(c, ids);
    forall i | 0 <= i < |as_| ensures ds[i] == ActorConverter.ToDto(as_[i]) {
      assert as_[i].id == ids[i];
    }
  }
}

=== FILE: data_repository.dfy ===
/**
 * `Movies.Repository.DataRepository`, the older repository whose writes
 * answer with the entity or a `bool` instead of an HTTP response. Each
 * write is one save; a write that throws is a `Failure` and saves nothing.
 */
module DataRepository {
  import opened Wrappers
  import opened Entities
  import opened Dto
  import opened Outcomes
  import opened Database
  import opened Ordering
  import MovieMapper
  import ActorsController
  import MoviesController

  /** Movie entities of the listed ids, roles included when `withRoles`. */
  function MoviesOf(c: Catalog, ids: seq<int>, withRoles: bool): (ms: seq<Movie>)
    requires forall id :: id in ids ==> id in c.movies
    ensures |ms| == |ids|
    ensures forall i :: 0 <= i < |ids| ==> ms[i] == LoadMovie(c, ids[i], withRoles)
  {
    seq(|ids|, i requires 0 <= i < |ids| => LoadMovie(c, ids[i], withRoles))
  }

  /** Actor entities of the listed ids, roles included. */
  function ActorsOf(c: Catalog, ids: seq<int>): (as_: seq<Actor>)
    requires forall id :: id in ids ==> id in c.actors
    ensures |as_| == |ids|
    ensures forall i :: 0 <= i < |ids| ==> as_[i] == LoadActor(c, ids[i], true)
  {
    seq(|ids|, i requires 0 <= i < |ids| => LoadActor(c, ids[i], true))
  }

  /** The ids of a list of movies. */
  function MovieIds(ms: seq<Movie>): (ids: seq<int>)
    ensures |ids| == |ms|
    ensures forall i :: 0 <= i < |ms| ==> ids[i] == ms[i].id
  {
    seq(|ms|, i requires 0 <= i < |ms| => ms[i].id)
  }

  /** The ids of a list of actors. */
  function ActorIds(as_: seq<Actor>): (ids: seq<int>)
    ensures |ids| == |as_|
    ensures forall i :: 0 <= i < |as_| ==> ids[i] == as_[i].id
  {
    seq(|as_|, i requires 0 <= i < |as_| => as_[i].id)
  }

  lemma MoviesOfKeepIds(c: Catalog, ids: seq<int>, withRoles: bool)
    requires forall id :: id in ids ==> id in c.movies
    ensures MovieIds(MoviesOf(c, ids, withRoles)) == ids
  {
  }

  lemma ActorsOfKeepIds(c: Catalog, ids: seq<int>)
    requires forall id :: id in ids ==> id in c.actors
    ensures ActorIds(ActorsOf(c, ids)) == ids
  {
  }

  /** Inserts one actor, saves, and returns it; it carries the new id and no loaded roles. */
  function AddActor(c: Catalog, firstName: Text, lastName: Text, birthDate: Date): (r: (Result<Actor, Fault>, Catalog))
    requires Valid(c)
    ensures Valid(r.1)
    ensures r.0.Failure? <==> firstName.None? || lastName.None?
    ensures r.0.Failure? ==> r == (Failure(RequiredColumnNull), c)
    ensures r.0.Success? ==>
      var a := r.0.value;
      && a.id !in c.actors
      && a == Actor(a.id, firstName, lastName, birthDate, None)
      && r.1.actors == c.actors[a.id := ActorRow(firstName, lastName, birthDate)]
      && r.1.movies == c.movies
      && r.1.roles == c.roles
  {
    match InsertActor(c, ActorRow(firstName, lastName, birthDate))
    case Failure(f) => (Failure(f), c)
    case Success(ins) => (Success(Actor(ins.id, firstName, lastName, birthDate, None)), ins.store)
  }

  /** Removes the actor, and by cascade its roles; false and no change when there is none. */
  function DeleteActor(c: Catalog, actorId: int): (r: (bool, Catalog))
    requires Valid(c)
    ensures Valid(r.1)
    ensures r.0 <==> actorId in c.actors
    ensures !r.0 ==> r.1 == c
    ensures r.0 ==>
      && r.1.actors.Keys == c.actors.Keys - {actorId}
      && (forall a :: a in r.1.actors ==> r.1.actors[a] == c.actors[a])
      && (forall role :: role in r.1.roles <==> role in c.roles && role.actorId != actorId)
      && r.1.movies == c.movies
  {
    if actorId !in c.actors then (false, c)
    else (true, RemoveActor(c, actorId))
  }

  /** The movies, roles included, that have a role for `actorId`; no check that the actor exists. */
  function GetActorFilmography(c: Catalog, actorId: int): (ms: seq<Movie>)
    ensures Enumerates(MovieIds(ms), FilmographyOf(c, actorId))
    ensures forall m :: m in ms ==> m.id in c.movies && m == LoadMovie(c, m.id, true)
  {
    var ids := AscendingElements(FilmographyOf(c, actorId));
    MoviesOfKeepIds(c, ids, true);
    MoviesOf(c, ids, true)
  }

  /**
   * Adds the role when both ends exist and it is not there yet. The answer
   * is true exactly when both ends exist; ids are not range-checked.
   */
  function Link(c: Catalog, actorId: int, movieId: int): (r: (bool, Catalog))
    requires Valid(c)
    ensures Valid(r.1)
    ensures r.0 <==> actorId in c.actors && movieId in c.movies
    ensures !r.0 ==> r.1 == c
    ensures r.0 ==>
      && r.1.roles == c.roles + {MovieRole(movieId, actorId)}
      && r.1.actors == c.actors
      && r.1.movies == c.movies
      && r.1.nextActorId == c.nextActorId
      && r.1.nextMovieId == c.nextMovieId
  {
    if actorId !in c.actors then (false, c)
    else if movieId !in c.movies then (false, c)
    else if MovieRole(movieId, actorId) in c.roles then (true, c)
    else
      match InsertRole(c, MovieRole(movieId, actorId))
      case Failure(_) => assert false; (false, c)
      case Success(s) => (true, s)
  }

  /** Linking the same pair again answers the same and changes nothing. */
  lemma LinkIsIdempotent(c: Catalog, actorId: int, movieId: int)
    requires Valid(c)
    ensures var (b1, c1) := Link(c, actorId, movieId);
      Link(c1, actorId, movieId) == (b1, c1)
  {
    var (b1, c1) := Link(c, actorId, movieId);
    if b1 {
      assert MovieRole(movieId, actorId) in c1.roles;
    }
  }

  /** Removes the movie, and by cascade its roles; false and no change when there is none. */
  function DeleteMovie(c: Catalog, movieId: int): (r: (bool, Catalog))
    requires Valid(c)
    ensures Valid(r.1)
    ensures r.0 <==> movieId in c.movies
    ensures !r.0 ==> r.1 == c
    ensures r.0 ==>
      && r.1.movies.Keys == c.movies.Keys - {movieId}
      && (forall m :: m in r.1.movies ==> r.1.movies[m] == c.movies[m])
      && (forall role :: role in r.1.roles <==> role in c.roles && role.movieId != movieId)
      && r.1.actors == c.actors
  {
    if movieId !in c.movies then (false, c)
    else (true, RemoveMovie(c, movieId))
  }

  /** The actors, roles included, that have a role in `movieId`; no check that the movie exists. */
  function GetActorsFromMovie(c: Catalog, movieId: int): (as_: seq<Actor>)
    ensures Enumerates(ActorIds(as_), CastOf(c, movieId))
    ensures forall a :: a in as_ ==> a.id in c.actors && a == LoadActor(c, a.id, true)
  {
    var ids := AscendingElements(CastOf(c, movieId));
    ActorsOfKeepIds(c, ids);
    ActorsOf(c, ids)
  }

  /** Ids of the movies whose entity, roles included, satisfies `p`. */
  ghost function Satisfying(c: Catalog, p: Movie -> bool): set<int> {
    set m | m in c.movies && p(LoadMovie(c, m, true))
  }

  /**
   * The movies satisfying `p`. The predicate is evaluated by the database,
   * so it sees each movie together with its roles; the entities returned
   * are read without `Include`, so their roles are not loaded.
   */
  function GetMovies(c: Catalog, p: Movie -> bool): (ms: seq<Movie>)
    ensures Enumerates(MovieIds(ms), Satisfying(c, p))
    ensures forall m :: m in ms ==> m.id in c.movies && m == LoadMovie(c, m.id, false) && p(LoadMovie(c, m.id, true))
  {
    var ids := AscendingElements(set m | m in c.movies && p(LoadMovie(c, m, true)));
    SatisfyingMovies(c, p, ids);
    MoviesOf(c, ids, false)
  }

  /** Reading the enumerated ids without roles gives entities that satisfy `p` and keep those ids. */
  lemma SatisfyingMovies(c: Catalog, p: Movie -> bool, ids: seq<int>)
    requires Enumerates(ids, Satisfying(c, p))
    ensures forall id :: id in ids ==> id in c.movies
    ensures MovieIds(MoviesOf(c, ids, false)) == ids
    ensures forall m :: m in MoviesOf(c, ids, false) ==>
      m.id in c.movies && m == LoadMovie(c, m.id, false) && p(LoadMovie(c, m.id, true))
  {
    MoviesOfKeepIds(c, ids, false);
    var ms := MoviesOf(c, ids, false);
    forall m | m in ms ensures m.id in c.movies && m == LoadMovie(c, m.id, false) && p(LoadMovie(c, m.id, true)) {
      var k :| 0 <= k < |ms| && ms[k] == m;
      assert ids[k] in Satisfying(c, p);
    }
  }

  /**
   * Adds the movie and one role per listed id in one save, without first
   * checking that the actors exist: a missing actor is the database's
   * foreign-key error, a repeated id a duplicate key, a null list a null
   * reference. The returned movie carries its roles in list order, or a
   * null collection when the list is empty.
   */
  function AddMovie(c: Catalog, title: Text, genre: Text, year: int, actorIds: Option<seq<int>>): (r: (Result<Movie, Fault>, Catalog))
    requires Valid(c)
    ensures Valid(r.1)
    ensures r.0.Failure? ==> r.1 == c
    ensures actorIds.None? ==> r.0 == Failure(NullReference)
    ensures actorIds.Some? ==>
      var ids := actorIds.value;
      && (!Distinct(ids) ==> r.0 == Failure(DuplicateKey))
      && (Distinct(ids) && !(forall a :: a in ids ==> a in c.actors) ==> r.0 == Failure(ForeignKeyViolation))
      && (Distinct(ids) && (forall a :: a in ids ==> a in c.actors) ==>
            && r.0.Success?
            && var m := r.0.value;
            && m.id !in c.movies
            && m.title == title && m.year == year && m.genre == genre
            && (m.movieRoles.None? <==> ids == [])
            && (m.movieRoles.Some? ==> ActorIdsIn(m.movieRoles.value) == ids)
            && RolesOfMovie(m.movieRoles, m.id)
            && r.1.movies == c.movies[m.id := MovieRow(title, year, genre)]
            && r.1.actors == c.actors
            && r.1.roles == c.roles + RolesFor(m.id, ids))
  {
    match actorIds
    case None => (Failure(NullReference), c)
    case Some(ids) =>
      match InsertMovie(c, MovieRow(title, year, genre), ids)
      case Failure(f) => (Failure(f), c)
      case Success(ins) =>
        (Success(Movie(ins.id, title, year, genre, MoviesController.FixedUpRoles(ins.id, ids))), ins.store)
  }

  // ------------------------------------------------- agreement with the controllers

  /**
   * On a valid store the repository's `Link` and the controller's action
   * make the same change, and the repository says true exactly when the
   * controller says 200: the controller's range check rejects no existing id.
   */
  lemma LinkAgreesWithController(c: Catalog, actorId: int, movieId: int)
    requires Valid(c)
    ensures Link(c, actorId, movieId).1 == ActorsController.LinkActorWithMovie(c, actorId, movieId).1
    ensures Link(c, actorId, movieId).0 <==> ActorsController.LinkActorWithMovie(c, actorId, movieId).0.Ok?
  {
  }

  /** The repository's filmography of a missing actor is empty where the controller answers 404. */
  lemma FilmographyOfMissingActorIsEmpty(c: Catalog, actorId: int)
    requires Valid(c) && actorId !in c.actors
    ensures GetActorFilmography(c, actorId) == []
    ensures ActorsController.GetActorFilmography(c, actorId) == NotFound(None)
  {
  }

  /** Adding an actor through the repository and through the controller changes the store alike. */
  lemma AddActorAgreesWithController(c: Catalog, request: CreateActorDto)
    requires Valid(c)
    ensures var (a, s) := AddActor(c, request.firstName, request.lastName, request.birthDate);
      var (resp, t) := ActorsController.CreateActor(c, request, true);
      && s == t
      && (a.Success? <==> resp.Created?)
      && (a.Success? ==> a.value.id == resp.location)
  {
  }

  /** Deleting through the repository and through either controller changes the store alike. */
  lemma DeletesAgreeWithControllers(c: Catalog, actorId: int, movieId: int)
    requires Valid(c)
    ensures DeleteActor(c, actorId).1 == ActorsController.DeleteActor(c, actorId).1
    ensures DeleteActor(c, actorId).0 <==> ActorsController.DeleteActor(c, actorId).0 == NoContent
    ensures DeleteMovie(c, movieId).1 == MoviesController.DeleteMovie(c, movieId).1
    ensures DeleteMovie(c, movieId).0 <==> MoviesController.DeleteMovie(c, movieId).0 == NoContent
  {
  }

  /**
   * `AddMovie` and the controller's create agree when every actor exists;
   * when one is missing the controller answers 404 without a write while
   * the repository leaves it to the database's foreign key.
   */
  lemma AddMovieAgreesWithController(c: Catalog, request: CreateMovieDto)
    requires Valid(c) && request.actorIds.Some? && Distinct(request.actorIds.value)
    ensures var (m, s) := AddMovie(c, request.title, request.genre, request.year, request.actorIds);
      var (resp, t) := MoviesController.CreateMovieWithActors(c, request);
      && s == t
      && ((forall a :: a in request.actorIds.value ==> a in c.actors) ==>
            m.Success? && resp.Created? && m.value.id == resp.location)
      && (!(forall a :: a in request.actorIds.value ==> a in c.actors) ==>
            m == Failure(ForeignKeyViolation) && resp.NotFound?)
  {
    var ids := request.actorIds.value;
    var k := MoviesController.FirstMissingActor(c, ids);
    if !(forall a :: a in ids ==> a in c.actors) {
      var a :| a in ids && a !in c.actors;
      assert k < |ids|;
    }
  }

  /** Movie entities enumerating `s` line up, index for index, with DTOs listing `s`. */
  lemma EntitiesMatchListedDtos(c: Catalog, ms: seq<Movie>, ds: seq<MovieDto>, s: set<int>)
    requires Enumerates(MovieIds(ms), s)
    requires ListsMovies(c, ds, s, MovieMapper.ToDto)
    ensures |ms| == |ds|
    ensures forall i :: 0 <= i < |ms| ==> ms[i].id in c.movies && ds[i] == MovieMapper.ToDto(LoadMovie(c, ms[i].id, true))
  {
    var ids :| Enumerates(ids, s) && |ids| == |ds| &&
      forall i :: 0 <= i < |ids| ==> ids[i] in c.movies && ds[i] == MovieMapper.ToDto(LoadMovie(c, ids[i], true));
    EnumerationIsUnique(MovieIds(ms), ids, s);
  }

  /** Filtering with the year predicate selects the same movies the controller's year search lists. */
  lemma YearPredicateSelectsSearch(c: Catalog, year: int)
    ensures var ms := GetMovies(c, (m: Movie) => m.year == year);
      var ds := MoviesController.GetMoviesByYear(c, year).body;
      && |ms| == |ds|
      && forall i :: 0 <= i < |ms| ==> ms[i].id in c.movies && ds[i] == MovieMapper.ToDto(LoadMovie(c, ms[i].id, true))
  {
    var p := (m: Movie) => m.year == year;
    var yearSet := MoviesController.MoviesInYear(c, year);
    assert Satisfying(c, p) == yearSet;
    EntitiesMatchListedDtos(c, GetMovies(c, p), MoviesController.GetMoviesByYear(c, year).body, yearSet);
  }
}

=== FILE: database.dfy ===
/**
 * The relational store as the initial migration lays it out: an Actor and
 * a Movie table with generated integer keys, and a MovieRole join table
 * keyed by (MovieId, ActorId) whose two foreign keys cascade on delete.
 *
 * Each write below is one `SaveChanges`: it either commits completely or
 * throws and leaves the store as it was.
 */
module Database {
  import opened Wrappers
  import opened Entities
  import opened Outcomes
  import opened Ordering

  /** The Actor columns other than the key. */
  datatype ActorRow = ActorRow(firstName: Text, lastName: Text, birthDate: Date)

  /** The Movie columns other than the key. */
  datatype MovieRow = MovieRow(title: Text, year: int, genre: Text)

  /**
   * The three tables. `roles` is a set because its key is the whole row;
   * `nextActorId` and `nextMovieId` are the identity counters.
   */
  datatype Catalog = Catalog(
    actors: map<int, ActorRow>,
    movies: map<int, MovieRow>,
    roles: set<MovieRole>,
    nextActorId: int,
    nextMovieId: int)

  /** A freshly migrated, empty database. */
  const Empty: Catalog := Catalog(map[], map[], {}, 1, 1)

  /** Every key was handed out by its identity counter, which starts at 1. */
  predicate IdsGenerated(c: Catalog) {
    && 1 <= c.nextActorId
    && 1 <= c.nextMovieId
    && (forall id :: id in c.actors ==> 1 <= id < c.nextActorId)
    && (forall id :: id in c.movies ==> 1 <= id < c.nextMovieId)
  }

  /** Both foreign keys of every role resolve. */
  predicate RolesReferenceParents(c: Catalog) {
    forall r :: r in c.roles ==> r.actorId in c.actors && r.movieId in c.movies
  }

  /** Actor.FirstName and Actor.LastName are NOT NULL; Movie.Title and Movie.Genre may be null. */
  predicate RequiredColumnsSet(c: Catalog) {
    forall id :: id in c.actors ==> c.actors[id].firstName.Some? && c.actors[id].lastName.Some?
  }

  /** The schema's constraints, which every committed state satisfies. */
  predicate Valid(c: Catalog) {
    IdsGenerated(c) && RolesReferenceParents(c) && RequiredColumnsSet(c)
  }

  // ---------------------------------------------------------------- reads

  /** Movie ids of the actor's role rows: what eager loading of the roles brings back with an actor. */
  function MovieIdsOfActor(c: Catalog, actorId: int): set<int> {
    set r | r in c.roles && r.actorId == actorId :: r.movieId
  }

  /** Actor ids of the movie's role rows. */
  function ActorIdsOfMovie(c: Catalog, movieId: int): set<int> {
    set r | r in c.roles && r.movieId == movieId :: r.actorId
  }

  /** The movies that have at least one role row naming the actor. */
  function FilmographyOf(c: Catalog, actorId: int): set<int> {
    set m | m in c.movies && MovieRole(m, actorId) in c.roles
  }

  /** The actors that have at least one role row naming the movie. */
  function CastOf(c: Catalog, movieId: int): set<int> {
    set a | a in c.actors && MovieRole(movieId, a) in c.roles
  }

  /** The actor's role rows, ascending by movie id. */
  function ActorRoles(c: Catalog, actorId: int): (rs: seq<MovieRole>)
    ensures forall i :: 0 <= i < |rs| ==> rs[i].actorId == actorId
    ensures forall r :: r in rs <==> r in c.roles && r.actorId == actorId
    ensures Enumerates(MovieIdsIn(rs), MovieIdsOfActor(c, actorId))
  {
    var ids := AscendingElements(MovieIdsOfActor(c, actorId));
    var rs := seq(|ids|, i requires 0 <= i < |ids| => MovieRole(ids[i], actorId));
    assert MovieIdsIn(rs) == ids;
    forall r | r in c.roles && r.actorId == actorId ensures r in rs {
      assert r.movieId in ids;
      var k :| 0 <= k < |ids| && ids[k] == r.movieId;
      assert rs[k] == r;
    }
    forall k | 0 <= k < |rs| ensures rs[k] in c.roles {
      assert ids[k] in MovieIdsOfActor(c, actorId);
      var r :| r in c.roles && r.actorId == actorId && r.movieId == ids[k];
      assert r == rs[k];
    }
    rs
  }

  /** The movie's role rows, ascending by actor id. */
  function MovieRoles(c: Catalog, movieId: int): (rs: seq<MovieRole>)
    ensures forall i :: 0 <= i < |rs| ==> rs[i].movieId == movieId
    ensures forall r :: r in rs <==> r in c.roles && r.movieId == movieId
    ensures Enumerates(ActorIdsIn(rs), ActorIdsOfMovie(c, movieId))
  {
    var ids := AscendingElements(ActorIdsOfMovie(c, movieId));
    var rs := seq(|ids|, i requires 0 <= i < |ids| => MovieRole(movieId, ids[i]));
    assert ActorIdsIn(rs) == ids;
    forall r | r in c.roles && r.movieId == movieId ensures r in rs {
      assert r.actorId in ids;
      var k :| 0 <= k < |ids| && ids[k] == r.actorId;
      assert rs[k] == r;
    }
    forall k | 0 <= k < |rs| ensures rs[k] in c.roles {
      assert ids[k] in ActorIdsOfMovie(c, movieId);
      var r :| r in c.roles && r.movieId == movieId && r.actorId == ids[k];
      assert r == rs[k];
    }
    rs
  }

  /** The Actor entity for a stored row; `withRoles` says whether its roles were loaded. */
  function LoadActor(c: Catalog, id: int, withRoles: bool): (a: Actor)
    requires id in c.actors
    ensures a.id == id
    ensures ActorRow(a.firstName, a.lastName, a.birthDate) == c.actors[id]
    ensures a.movieRoles == if withRoles then Some(ActorRoles(c, id)) else None
  {
    var row := c.actors[id];
    Actor(id, row.firstName, row.lastName, row.birthDate, if withRoles then Some(ActorRoles(c, id)) else None)
  }

  /** The Movie entity for a stored row; `withRoles` says whether its roles were loaded. */
  function LoadMovie(c: Catalog, id: int, withRoles: bool): (m: Movie)
    requires id in c.movies
    ensures m.id == id
    ensures MovieRow(m.title, m.year, m.genre) == c.movies[id]
    ensures m.movieRoles == if withRoles then Some(MovieRoles(c, id)) else None
  {
    var row := c.movies[id];
    Movie(id, row.title, row.year, row.genre, if withRoles then Some(MovieRoles(c, id)) else None)
  }

  /**
   * `xs` shows each actor of `s`, loaded with its roles, through `view`: one
   * element per actor, in ascending id order, and nothing else.
   */
  ghost predicate ListsActors<T>(c: Catalog, xs: seq<T>, s: set<int>, view: Actor -> T) {
    exists ids :: Enumerates(ids, s) && |ids| == |xs| &&
      forall i :: 0 <= i < |ids| ==> ids[i] in c.actors && xs[i] == view(LoadActor(c, ids[i], true))
  }

  /**
   * `xs` shows each movie of `s`, loaded with its roles, through `view`: one
   * element per movie, in ascending id order, and nothing else.
   */
  ghost predicate ListsMovies<T>(c: Catalog, xs: seq<T>, s: set<int>, view: Movie -> T) {
    exists ids :: Enumerates(ids, s) && |ids| == |xs| &&
      forall i :: 0 <= i < |ids| ==> ids[i] in c.movies && xs[i] == view(LoadMovie(c, ids[i], true))
  }

  /** Such a list has one element per actor of the set and shows each of them. */
  lemma ListedActorsCover<T>(c: Catalog, xs: seq<T>, s: set<int>, view: Actor -> T)
    requires ListsActors(c, xs, s, view)
    ensures s <= c.actors.Keys && |xs| == |s|
    ensures forall a :: a in s ==> view(LoadActor(c, a, true)) in xs
  {
    var ids :| Enumerates(ids, s) && |ids| == |xs| &&
      forall i :: 0 <= i < |ids| ==> ids[i] in c.actors && xs[i] == view(LoadActor(c, ids[i], true));
    EnumerationIsUnique(ids, AscendingElements(s), s);
    forall a | a in s ensures a in c.actors && view(LoadActor(c, a, true)) in xs {
      var k :| 0 <= k < |ids| && ids[k] == a;
      assert xs[k] == view(LoadActor(c, a, true));
    }
  }

  /** Such a list has one element per movie of the set and shows each of them. */
  lemma ListedMoviesCover<T>(c: Catalog, xs: seq<T>, s: set<int>, view: Movie -> T)
    requires ListsMovies(c, xs, s, view)
    ensures s <= c.movies.Keys && |xs| == |s|
    ensures forall m :: m in s ==> view(LoadMovie(c, m, true)) in xs
  {
    var ids :| Enumerates(ids, s) && |ids| == |xs| &&
      forall i :: 0 <= i < |ids| ==> ids[i] in c.movies && xs[i] == view(LoadMovie(c, ids[i], true));
    EnumerationIsUnique(ids, AscendingElements(s), s);
    forall m | m in s ensures m in c.movies && view(LoadMovie(c, m, true)) in xs {
      var k :| 0 <= k < |ids| && ids[k] == m;
      assert xs[k] == view(LoadMovie(c, m, true));
    }
  }

  /** With the foreign keys in place the two ways of asking for an actor's movies agree. */
  lemma FilmographyIsActorRoles(c: Catalog, actorId: int)
    requires Valid(c)
    ensures FilmographyOf(c, actorId) == MovieIdsOfActor(c, actorId)
  {
    forall m | m in MovieIdsOfActor(c, actorId) ensures m in FilmographyOf(c, actorId) {
      var r :| r in c.roles && r.actorId == actorId && r.movieId == m;
      assert r == MovieRole(m, actorId);
    }
  }

  /** With the foreign keys in place the two ways of asking for a movie's actors agree. */
  lemma CastIsMovieRoles(c: Catalog, movieId: int)
    requires Valid(c)
    ensures CastOf(c, movieId) == ActorIdsOfMovie(c, movieId)
  {
    forall a | a in ActorIdsOfMovie(c, movieId) ensures a in CastOf(c, movieId) {
      var r :| r in c.roles && r.movieId == movieId && r.actorId == a;
      assert r == MovieRole(movieId, a);
    }
  }

  // --------------------------------------------------------------- writes

  /** A committed insert: the new state and the generated key. */
  datatype Inserted = Inserted(store: Catalog, id: int)

  /** `Actors.Add(actor)` then `SaveChanges()`: the NOT NULL name columns are checked at commit. */
  function InsertActor(c: Catalog, row: ActorRow): (r: Result<Inserted, Fault>)
    requires Valid(c)
    ensures r.Failure? <==> row.firstName.None? || row.lastName.None?
    ensures r.Failure? ==> r.error == RequiredColumnNull
    ensures r.Success? ==>
      var s := r.value.store;
      && r.value.id !in c.actors
      && s.actors == c.actors[r.value.id := row]
      && s.movies == c.movies
      && s.roles == c.roles
      && s.nextMovieId == c.nextMovieId
      && Valid(s)
  {
    if row.firstName.None? || row.lastName.None? then Failure(RequiredColumnNull)
    else
      var id := c.nextActorId;
      Success(Inserted(c.(actors := c.actors[id := row], nextActorId := id + 1), id))
  }

  /** The role rows that tie a new movie `movieId` to each listed actor. */
  function RolesFor(movieId: int, actorIds: seq<int>): set<MovieRole> {
    set a | a in actorIds :: MovieRole(movieId, a)
  }

  /**
   * A movie added together with one role per listed actor, committed by one
   * `SaveChanges`. Two roles for the same actor are refused before anything
   * is saved, when the change tracker is handed the second role with the
   * same key (duplicate key); an actor id with no row makes the commit fail
   * on the foreign key.
   */
  function InsertMovie(c: Catalog, row: MovieRow, actorIds: seq<int>): (r: Result<Inserted, Fault>)
    requires Valid(c)
    ensures r.Failure? <==> !Distinct(actorIds) || !(forall a :: a in actorIds ==> a in c.actors)
    ensures r.Failure? ==> r.error == if Distinct(actorIds) then ForeignKeyViolation else DuplicateKey
    ensures r.Success? ==>
      var s := r.value.store;
      && r.value.id !in c.movies
      && s.movies == c.movies[r.value.id := row]
      && s.actors == c.actors
      && s.roles == c.roles + RolesFor(r.value.id, actorIds)
      && s.nextActorId == c.nextActorId
      && Valid(s)
  {
    if !Distinct(actorIds) then Failure(DuplicateKey)
    else if !(forall a :: a in actorIds ==> a in c.actors) then Failure(ForeignKeyViolation)
    else
      var id := c.nextMovieId;
      var s := c.(movies := c.movies[id := row], roles := c.roles + RolesFor(id, actorIds), nextMovieId := id + 1);
      assert RolesReferenceParents(s);
      Success(Inserted(s, id))
  }

  /** One role row added and committed: refused when the pair exists or either parent is missing. */
  function InsertRole(c: Catalog, role: MovieRole): (r: Result<Catalog, Fault>)
    requires Valid(c)
    ensures r.Failure? <==> role in c.roles || role.actorId !in c.actors || role.movieId !in c.movies
    ensures r.Failure? ==> r.error == if role in c.roles then DuplicateKey else ForeignKeyViolation
    ensures r.Success? ==>
      && r.value.roles == c.roles + {role}
      && r.value.actors == c.actors
      && r.value.movies == c.movies
      && r.value.nextActorId == c.nextActorId
      && r.value.nextMovieId == c.nextMovieId
      && Valid(r.value)
  {
    if role in c.roles then Failure(DuplicateKey)
    else if role.actorId !in c.actors || role.movieId !in c.movies then Failure(ForeignKeyViolation)
    else Success(c.(roles := c.roles + {role}))
  }

  /** `Update(movie)` then `SaveChanges()` for a movie that was found: every column but the key is written. */
  function ReplaceMovie(c: Catalog, id: int, row: MovieRow): (s: Catalog)
    requires Valid(c) && id in c.movies
    ensures s.movies.Keys == c.movies.Keys
    ensures s.movies[id] == row
    ensures forall m :: m in c.movies && m != id ==> s.movies[m] == c.movies[m]
    ensures s.actors == c.actors && s.roles == c.roles
    ensures s.nextActorId == c.nextActorId && s.nextMovieId == c.nextMovieId
    ensures Valid(s)
  {
    c.(movies := c.movies[id := row])
  }

  /** `Remove(actor)` then `SaveChanges()`: the actor's roles go with it (ON DELETE CASCADE). */
  function RemoveActor(c: Catalog, id: int): (s: Catalog)
    requires Valid(c) && id in c.actors
    ensures s.actors.Keys == c.actors.Keys - {id}
    ensures forall a :: a in s.actors ==> s.actors[a] == c.actors[a]
    ensures forall r :: r in s.roles <==> r in c.roles && r.actorId != id
    ensures s.movies == c.movies
    ensures s.nextActorId == c.nextActorId && s.nextMovieId == c.nextMovieId
    ensures Valid(s)
  {
    c.(actors := c.actors - {id}, roles := set r | r in c.roles && r.actorId != id)
  }

  /** `Remove(movie)` then `SaveChanges()`: the movie's roles go with it (ON DELETE CASCADE). */
  function RemoveMovie(c: Catalog, id: int): (s: Catalog)
    requires Valid(c) && id in c.movies
    ensures s.movies.Keys == c.movies.Keys - {id}
    ensures forall m :: m in s.movies ==> s.movies[m] == c.movies[m]
    ensures forall r :: r in s.roles <==> r in c.roles && r.movieId != id
    ensures s.actors == c.actors
    ensures s.nextActorId == c.nextActorId && s.nextMovieId == c.nextMovieId
    ensures Valid(s)
  {
    c.(movies := c.movies - {id}, roles := set r | r in c.roles && r.movieId != id)
  }

  /** Without the cascade, deleting an actor who has a role would leave a dangling foreign key. */
  lemma CascadeIsNeeded(c: Catalog, id: int)
    requires Valid(c) && id in c.actors && MovieIdsOfActor(c, id) != {}
    ensures !Valid(c.(actors := c.actors - {id}))
  {
    var m :| m in MovieIdsOfActor(c, id);
    var r :| r in c.roles && r.actorId == id && r.movieId == m;
    assert r.actorId !in (c.actors - {id});
  }
}

=== FILE: decimal.dfy ===
/**
 * Decimal rendering of an `int`, as `"Actor: " + actorId` does through
 * `Int32.ToString()` with a culture whose negative sign is "-", together
 * with the reading that inverts it.
 */
module Decimal {

  predicate IsDigit(ch: char) {
    '0' <= ch <= '9'
  }

  /** The character of a single decimal digit. */
  function DigitChar(d: int): (ch: char)
    requires 0 <= d < 10
    ensures IsDigit(ch) && ch as int - '0' as int == d
  {
    (d + '0' as int) as char
  }

  /** The decimal digits of `n`, most significant first, without leading zeros. */
  function Digits(n: nat): (s: string)
    ensures |s| >= 1
    ensures forall i :: 0 <= i < |s| ==> IsDigit(s[i])
    ensures s[0] == '0' ==> n == 0
  {
    if n < 10 then [DigitChar(n)] else Digits(n / 10) + [DigitChar(n % 10)]
  }

  /** `n.ToString()`: a minus sign for negative values, then the digits of the magnitude. */
  function FromInt(n: int): (s: string)
    ensures |s| >= 1
  {
    if n < 0 then "-" + Digits(-n) else Digits(n)
  }

  function DigitValue(ch: char): nat
    requires IsDigit(ch)
  {
    ch as int - '0' as int
  }

  /** The value of a string of decimal digits. */
  function DigitsValue(s: string): nat
    requires forall i :: 0 <= i < |s| ==> IsDigit(s[i])
  {
    if s == [] then 0
    else DigitsValue(s[..|s| - 1]) * 10 + DigitValue(s[|s| - 1])
  }

  /** An optional minus sign followed by at least one digit. */
  predicate IsNumeral(s: string) {
    if |s| > 0 && s[0] == '-' then
      |s| > 1 && forall i :: 1 <= i < |s| ==> IsDigit(s[i])
    else
      |s| > 0 && forall i :: 0 <= i < |s| ==> IsDigit(s[i])
  }

  /** `Int32.Parse` restricted to numerals: the inverse of `FromInt`. */
  function ToInt(s: string): int
    requires IsNumeral(s)
  {
    if s[0] == '-' then -(DigitsValue(s[1..]) as int) else DigitsValue(s)
  }

  lemma {:induction false} DigitsRoundTrip(n: nat)
    ensures DigitsValue(Digits(n)) == n
  {
    if n >= 10 {
      var s := Digits(n);
      assert s[..|s| - 1] == Digits(n / 10);
      DigitsRoundTrip(n / 10);
    }
  }

  /** Reading back the rendering of any `int` gives that `int`. */
  lemma FromIntRoundTrip(n: int)
    ensures IsNumeral(FromInt(n))
    ensures ToInt(FromInt(n)) == n
  {
    var s := FromInt(n);
    if n < 0 {
      assert s[1..] == Digits(-n);
      DigitsRoundTrip(-n);
    } else {
      DigitsRoundTrip(n);
    }
  }

  /** Different ids render differently, so a message that embeds one names exactly one id. */
  lemma FromIntInjective(a: int, b: int)
    requires FromInt(a) == FromInt(b)
    ensures a == b
  {
    FromIntRoundTrip(a);
    FromIntRoundTrip(b);
  }
}

=== FILE: entities.dfy ===
/**
 * The entity classes of the catalog (Movies/Models) as values. Navigation
 * properties that point back at the owner are dropped: a loaded role
 * collection is the list of its `(MovieId, ActorId)` keys.
 */
module Entities {
  import opened Wrappers

  /** A string property that may be null. */
  type Text = Option<string>

  /** A birth date; the catalog only stores and copies it. */
  datatype Date = Date(ticks: int)

  /** One row of the join table; the pair of ids is its primary key. */
  datatype MovieRole = MovieRole(movieId: int, actorId: int)

  /**
   * `movieRoles` is `None` when the collection was not loaded (no
   * `Include`) and so is null, as for an actor just constructed.
   */
  datatype Actor = Actor(
    id: int,
    firstName: Text,
    lastName: Text,
    birthDate: Date,
    movieRoles: Option<seq<MovieRole>>)

  datatype Movie = Movie(
    id: int,
    title: Text,
    year: int,
    genre: Text,
    movieRoles: Option<seq<MovieRole>>)

  /** The `MovieId` of each role, in order. */
  function MovieIdsIn(rs: seq<MovieRole>): (ids: seq<int>)
    ensures |ids| == |rs|
    ensures forall i :: 0 <= i < |rs| ==> ids[i] == rs[i].movieId
  {
    seq(|rs|, i requires 0 <= i < |rs| => rs[i].movieId)
  }

  /** The `ActorId` of each role, in order. */
  function ActorIdsIn(rs: seq<MovieRole>): (ids: seq<int>)
    ensures |ids| == |rs|
    ensures forall i :: 0 <= i < |rs| ==> ids[i] == rs[i].actorId
  {
    seq(|rs|, i requires 0 <= i < |rs| => rs[i].actorId)
  }
}

/** Transport shapes (Movies/Dto): what the controllers return and accept. */
module Dto {
  import opened Wrappers
  import opened Entities

  /** The value an `int` property keeps when nothing assigns it. */
  const DefaultId: int := 0

  datatype ActorDto = ActorDto(
    id: int,
    firstName: Text,
    lastName: Text,
    birthDate: Date,
    movies: Option<seq<int>>)

  datatype MovieDto = MovieDto(
    id: int,
    title: Text,
    year: int,
    genre: Text,
    actors: Option<seq<int>>)

  datatype CreateActorDto = CreateActorDto(firstName: Text, lastName: Text, birthDate: Date)

  /** `actorIds` is `None` when the request carries no array. */
  datatype CreateMovieDto = CreateMovieDto(title: Text, year: int, genre: Text, actorIds: Option<seq<int>>)

  datatype UpdateMovieDto = UpdateMovieDto(title: Text, year: int, genre: Text)

  /** The movie id of each role, in order; a null role collection gives a null array. */
  function MovieIdsOf(roles: Option<seq<MovieRole>>): (ids: Option<seq<int>>)
    ensures ids.None? <==> roles.None?
    ensures ids.Some? ==> |ids.value| == |roles.value|
    ensures ids.Some? ==> forall i :: 0 <= i < |ids.value| ==> ids.value[i] == roles.value[i].movieId
  {
    match roles
    case None => None
    case Some(rs) => Some(MovieIdsIn(rs))
  }

  /** The actor id of each role, in order; a null role collection gives a null array. */
  function ActorIdsOf(roles: Option<seq<MovieRole>>): (ids: Option<seq<int>>)
    ensures ids.None? <==> roles.None?
    ensures ids.Some? ==> |ids.value| == |roles.value|
    ensures ids.Some? ==> forall i :: 0 <= i < |ids.value| ==> ids.value[i] == roles.value[i].actorId
  {
    match roles
    case None => None
    case Some(rs) => Some(ActorIdsIn(rs))
  }

  /**
   * Rebuilds an actor from its DTO and the actor's id: each listed movie
   * id becomes the role `(movieId, actorId)`.
   */
  function ActorFromDto(d: ActorDto, actorId: int): (a: Actor)
    ensures a.id == actorId
  {
    var roles := match d.movies
      case None => None
      case Some(ms) => Some(seq(|ms|, i requires 0 <= i < |ms| => MovieRole(ms[i], actorId)));
    Actor(actorId, d.firstName, d.lastName, d.birthDate, roles)
  }

  /** Rebuilds a movie from its DTO and the movie's id. */
  function MovieFromDto(d: MovieDto, movieId: int): (m: Movie)
    ensures m.id == movieId
  {
    var roles := match d.actors
      case None => None
      case Some(as_) => Some(seq(|as_|, i requires 0 <= i < |as_| => MovieRole(movieId, as_[i])));
    Movie(movieId, d.title, d.year, d.genre, roles)
  }

  /** Every role in the collection belongs to the actor `actorId`. */
  predicate RolesOfActor(roles: Option<seq<MovieRole>>, actorId: int) {
    roles.Some? ==> forall i :: 0 <= i < |roles.value| ==> roles.value[i].actorId == actorId
  }

  /** Every role in the collection belongs to the movie `movieId`. */
  predicate RolesOfMovie(roles: Option<seq<MovieRole>>, movieId: int) {
    roles.Some? ==> forall i :: 0 <= i < |roles.value| ==> roles.value[i].movieId == movieId
  }
}

/** What an action hands back to the framework. */
module Outcomes {
  import opened Wrappers

  /** Exceptions an action can let escape; the host turns each into a 500 response. */
  datatype Fault =
    | NullReference        // `foreach` over a null array
    | DuplicateKey         // two role rows with the same (MovieId, ActorId)
    | ForeignKeyViolation  // a role whose actor or movie row does not exist
    | RequiredColumnNull   // a null Actor.FirstName or Actor.LastName
    | NoRouteMatched       // a created-at link whose route values fill no route of its target action

  /**
   * `Ok(...)`, `CreatedAtAction(...)` (with the new entity's id as the
   * route value), `NoContent()`, `BadRequest()`, `NotFound()` /
   * `NotFound(value)`, or an escaping exception.
   */
  datatype Response<+T> =
    | Ok(body: T)
    | Created(location: int, body: T)
    | NoContent
    | BadRequest
    | NotFound(message: Option<string>)
    | Faulted(fault: Fault)

  /**
   * `CreatedAtAction` builds its Location link from the target action's
   * route template; the link exists only when the route values name the
   * template's parameter, and otherwise the framework throws.
   */
  predicate LinkGenerates(routeValue: string, routeParameter: string) {
    routeValue == routeParameter
  }
}

=== FILE: future_year_validation.dfy ===
/** `Movies.Attributes.FutureYearValidationAttribute`; the clock's current year is a parameter. */
module FutureYearValidation {

  /** A year passes unless it lies after the current year. */
  predicate IsValid(year: int, currentYear: int) {
    year <= currentYear
  }

  /** The current year passes and the next one does not. */
  lemma CurrentYearIsTheBoundary(currentYear: int)
    ensures IsValid(currentYear, currentYear)
    ensures !IsValid(currentYear + 1, currentYear)
  {
  }

  /** If a year passes, so does every earlier year. */
  lemma DownwardClosed(year: int, earlier: int, currentYear: int)
    requires IsValid(year, currentYear) && earlier <= year
    ensures IsValid(earlier, currentYear)
  {
  }

  /** A year that passes keeps passing as the clock moves on. */
  lemma StaysValid(year: int, currentYear: int, laterYear: int)
    requires IsValid(year, currentYear) && currentYear <= laterYear
    ensures IsValid(year, laterYear)
  {
  }

  const MessagePrefix: string := "Field "
  const MessageSuffix: string := " is a future year which is not allowed"

  /** "Field <name> is a future year which is not allowed". */
  function FormatErrorMessage(name: string): (message: string)
    ensures |message| == |MessagePrefix| + |name| + |MessageSuffix|
    ensures message[..|MessagePrefix|] == MessagePrefix
    ensures message[|MessagePrefix|..|MessagePrefix| + |name|] == name
    ensures message[|MessagePrefix| + |name|..] == MessageSuffix
  {
    MessagePrefix + name + MessageSuffix
  }

  /** The message determines the field it was built for. */
  lemma FormatErrorMessageInjective(a: string, b: string)
    requires FormatErrorMessage(a) == FormatErrorMessage(b)
    ensures a == b
  {
    var m := FormatErrorMessage(a);
    assert |a| == |b|;
    assert a == m[|MessagePrefix|..|MessagePrefix| + |a|] == b;
  }
}

=== FILE: movie_converter.dfy ===
/** `Movies.Converters.MovieConverter`, the movie mapping `ActorsController` uses. */
module MovieConverter {
  import opened Wrappers
  import opened Entities
  import opened Dto

  /** Copies title, year, genre and the roles' actor ids; `Id` is never assigned. */
  function ToDto(movie: Movie): (d: MovieDto)
    ensures d.id == DefaultId
    ensures d.title == movie.title && d.year == movie.year && d.genre == movie.genre
    ensures d.actors.None? <==> movie.movieRoles.None?
    ensures d.actors.Some? ==>
      |d.actors.value| == |movie.movieRoles.value| &&
      forall i :: 0 <= i < |d.actors.value| ==> d.actors.value[i] == movie.movieRoles.value[i].actorId
  {
    MovieDto(DefaultId, movie.title, movie.year, movie.genre, ActorIdsOf(movie.movieRoles))
  }

  /** Only the id is lost: supplied from elsewhere, it rebuilds the movie exactly. */
  lemma RoundTripGivenId(movie: Movie)
    requires RolesOfMovie(movie.movieRoles, movie.id)
    ensures MovieFromDto(ToDto(movie), movie.id) == movie
  {
    var m' := MovieFromDto(ToDto(movie), movie.id);
    if movie.movieRoles.Some? {
      assert m'.movieRoles.value == movie.movieRoles.value;
    }
  }
}

=== FILE: movie_mapper.dfy ===
/** `Movies.Mappers.MovieMapper`, the movie mapping `MoviesController` uses. */
module MovieMapper {
  import opened Wrappers
  import opened Entities
  import opened Dto
  import MovieConverter

  /** Copies title, year, genre and the roles' actor ids; like the converter, it never assigns `Id`. */
  function ToDto(movie: Movie): (d: MovieDto)
    ensures d.id == DefaultId
    ensures d.title == movie.title && d.year == movie.year && d.genre == movie.genre
    ensures d.actors.None? <==> movie.movieRoles.None?
    ensures d.actors.Some? ==>
      |d.actors.value| == |movie.movieRoles.value| &&
      forall i :: 0 <= i < |d.actors.value| ==> d.actors.value[i] == movie.movieRoles.value[i].actorId
  {
    MovieDto(DefaultId, movie.title, movie.year, movie.genre, ActorIdsOf(movie.movieRoles))
  }

  /** Both movie mappings produce the same DTO for every movie. */
  lemma SameAsConverter(movie: Movie)
    ensures ToDto(movie) == MovieConverter.ToDto(movie)
  {
  }

  /** The movie's id cannot be read back from its DTO: movies differing only in id map alike. */
  lemma IdIsDropped(movie: Movie, otherId: int)
    ensures ToDto(movie) == ToDto(movie.(id := otherId))
  {
  }
}

=== FILE: movies_controller.dfy ===
/**
 * `Movies.Controllers.MoviesController`. Each action maps the store and its
 * route or body arguments to a response and the store after the action's
 * single save; read-only actions return only the response.
 */
module MoviesController {
  import opened Wrappers
  import opened Entities
  import opened Dto
  import opened Outcomes
  import opened Database
  import opened Ordering
  import ActorMapper
  import MovieMapper
  import Decimal
  import RequestValidation

  /** DTOs of the listed movies, roles loaded, in list order. */
  function MovieDtos(c: Catalog, ids: seq<int>): (ds: seq<MovieDto>)
    requires forall id :: id in ids ==> id in c.movies
    ensures |ds| == |ids|
    ensures forall i :: 0 <= i < |ids| ==> ds[i] == MovieMapper.ToDto(LoadMovie(c, ids[i], true))
  {
    if ids == [] then []
    else [MovieMapper.ToDto(LoadMovie(c, ids[0], true))] + MovieDtos(c, ids[1..])
  }

  /** DTOs of the listed actors, roles loaded, in list order. */
  function ActorDtos(c: Catalog, ids: seq<int>): (ds: seq<ActorDto>)
    requires forall id :: id in ids ==> id in c.actors
    ensures |ds| == |ids|
    ensures forall i :: 0 <= i < |ids| ==> ds[i] == ActorMapper.ToDto(LoadActor(c, ids[i], true))
  {
    seq(|ids|, i requires 0 <= i < |ids| => ActorMapper.ToDto(LoadActor(c, ids[i], true)))
  }

  /** The ids carried by a list of actor DTOs. */
  function IdsOf(ds: seq<ActorDto>): (ids: seq<int>)
    ensures |ids| == |ds|
    ensures forall i :: 0 <= i < |ds| ==> ids[i] == ds[i].id
  {
    seq(|ds|, i requires 0 <= i < |ds| => ds[i].id)
  }

  /** Movies released in `year`. */
  function MoviesInYear(c: Catalog, year: int): set<int> {
    set m | m in c.movies && c.movies[m].year == year
  }

  /** GET /movies/{movieId}: 404 when absent, else the movie's DTO listing its whole cast. */
  function GetMovie(c: Catalog, movieId: int): (r: Response<MovieDto>)
    ensures r.Ok? || r == NotFound(None)
    ensures r.Ok? <==> movieId in c.movies
    ensures r.Ok? ==>
      && r.body.id == DefaultId
      && MovieRow(r.body.title, r.body.year, r.body.genre) == c.movies[movieId]
      && r.body.actors.Some?
      && Enumerates(r.body.actors.value, ActorIdsOfMovie(c, movieId))
  {
    if movieId !in c.movies then NotFound(None)
    else
      var d := MovieMapper.ToDto(LoadMovie(c, movieId, true));
      assert d.actors.value == ActorIdsIn(MovieRoles(c, movieId));
      Ok(d)
  }

  /** GET /movies: one DTO per movie, always 200. */
  function GetMovies(c: Catalog): (r: Response<seq<MovieDto>>)
    ensures r.Ok?
    ensures ListsMovies(c, r.body, c.movies.Keys, MovieMapper.ToDto)
    ensures |r.body| == |c.movies|
    ensures forall m :: m in c.movies ==> MovieMapper.ToDto(LoadMovie(c, m, true)) in r.body
  {
    var ids := AscendingElements(c.movies.Keys);
    assert Enumerates(ids, c.movies.Keys) && |ids| == |MovieDtos(c, ids)|;
    ListedMoviesCover(c, MovieDtos(c, ids), c.movies.Keys, MovieMapper.ToDto);
    Ok(MovieDtos(c, ids))
  }

  /** GET /movies/search?year=Y: exactly the movies whose year equals Y, always 200. */
  function GetMoviesByYear(c: Catalog, year: int): (r: Response<seq<MovieDto>>)
    ensures r.Ok?
    ensures ListsMovies(c, r.body, MoviesInYear(c, year), MovieMapper.ToDto)
    ensures |r.body| == |MoviesInYear(c, year)|
    ensures forall d :: d in r.body ==> d.year == year
    ensures forall m :: m in MoviesInYear(c, year) ==> MovieMapper.ToDto(LoadMovie(c, m, true)) in r.body
  {
    var ids := AscendingElements(MoviesInYear(c, year));
    MovieDtosOfYear(c, ids, year);
    assert Enumerates(ids, MoviesInYear(c, year)) && |ids| == |MovieDtos(c, ids)|;
    ListedMoviesCover(c, MovieDtos(c, ids), MoviesInYear(c, year), MovieMapper.ToDto);
    Ok(MovieDtos(c, ids))
  }

  /** DTOs of movies from one year all carry that year. */
  lemma MovieDtosOfYear(c: Catalog, ids: seq<int>, year: int)
    requires forall id :: id in ids ==> id in c.movies && c.movies[id].year == year
    ensures forall d :: d in MovieDtos(c, ids) ==> d.year == year
  {
    var ds := MovieDtos(c, ids);
    forall d | d in ds ensures d.year == year {
      var k :| 0 <= k < |ds| && ds[k] == d;
      assert ids[k] in MoviesInYear(c, year);
    }
  }

  /**
   * GET /movies/{movieId}/actors: 404 when the movie does not exist, else
   * one DTO per actor with a role in it; these DTOs carry their ids.
   */
  function GetActorsFromMovie(c: Catalog, movieId: int): (r: Response<seq<ActorDto>>)
    ensures r.Ok? || r == NotFound(None)
    ensures r.Ok? <==> movieId in c.movies
    ensures r.Ok? ==> Enumerates(IdsOf(r.body), CastOf(c, movieId))
    ensures r.Ok? ==> forall i :: 0 <= i < |r.body| ==>
      && r.body[i].id in c.actors
      && ActorRow(r.body[i].firstName, r.body[i].lastName, r.body[i].birthDate) == c.actors[r.body[i].id]
    ensures r.Ok? ==> ListsActors(c, r.body, CastOf(c, movieId), ActorMapper.ToDto)
  {
    if movieId !in c.movies then NotFound(None)
    else
      var ids := AscendingElements(CastOf(c, movieId));
      ActorDtosDescribeRows(c, ids);
      CastDtosListed(c, ids, movieId);
      Ok(ActorDtos(c, ids))
  }

  /** The mapped DTOs of the cast, in ascending id order, are exactly the cast's DTOs, roles loaded. */
  lemma CastDtosListed(c: Catalog, ids: seq<int>, movieId: int)
    requires Enumerates(ids, CastOf(c, movieId))
    ensures forall id :: id in ids ==> id in c.actors
    ensures ListsActors(c, ActorDtos(c, ids), CastOf(c, movieId), ActorMapper.ToDto)
  {
    assert Enumerates(ids, CastOf(c, movieId)) && |ids| == |ActorDtos(c, ids)|;
  }

  /** Actor DTOs keep their ids and show their rows. */
  lemma ActorDtosDescribeRows(c: Catalog, ids: seq<int>)
    requires forall id :: id in ids ==> id in c.actors
    ensures IdsOf(ActorDtos(c, ids)) == ids
    ensures var ds := ActorDtos(c, ids);
      forall i :: 0 <= i < |ds| ==>
        && ds[i].id in c.actors
        && ActorRow(ds[i].firstName, ds[i].lastName, ds[i].birthDate) == c.actors[ds[i].id]
  {
    var ds := ActorDtos(c, ids);
    forall i | 0 <= i < |ds|
      ensures ds[i].id == ids[i]
      ensures ds[i].id in c.actors
      ensures ActorRow(ds[i].firstName, ds[i].lastName, ds[i].birthDate) == c.actors[ds[i].id]
    {
      var a := LoadActor(c, ids[i], true);
      assert ds[i] == ActorMapper.ToDto(a);
    }
  }

  /** The index of the first listed actor id without a row, or the list's length when all exist. */
  function FirstMissingActor(c: Catalog, ids: seq<int>): (k: nat)
    ensures k <= |ids|
    ensures forall j :: 0 <= j < k ==> ids[j] in c.actors
    ensures k < |ids| ==> ids[k] !in c.actors
  {
    if ids == [] then 0
    else if ids[0] !in c.actors then 0
    else 1 + FirstMissingActor(c, ids[1..])
  }

  /** The 404 message for a missing actor. */
  function MissingActorMessage(actorId: int): string {
    "Actor: " + Decimal.FromInt(actorId)
  }

  /**
   * The roles of a just-added movie as relationship fix-up leaves them on
   * the entity: the collection has no initializer, so it is created only
   * when the first role is attached and stays null when none is; otherwise
   * it holds the roles in request order.
   */
  function FixedUpRoles(movieId: int, actorIds: seq<int>): (roles: Option<seq<MovieRole>>)
    ensures roles.None? <==> actorIds == []
    ensures roles.Some? ==> ActorIdsIn(roles.value) == actorIds
    ensures roles.Some? ==> forall role :: role in roles.value ==> role.movieId == movieId
  {
    if actorIds == [] then None
    else
      var rs := seq(|actorIds|, i requires 0 <= i < |actorIds| => MovieRole(movieId, actorIds[i]));
      assert ActorIdsIn(rs) == actorIds;
      Some(rs)
  }

  /**
   * POST /movies, the action body. The actor ids are checked in order and
   * the first missing one is answered with 404 "Actor: <id>" before anything
   * is added. Otherwise the movie and one role per listed actor are added
   * and saved together, and the answer is 201 with the movie's DTO, whose
   * actor list is null when no actor was listed. A null list faults in the loop; a repeated id faults when its second role is
   * added; neither saves anything.
   */
  function CreateMovieWithActors(c: Catalog, request: CreateMovieDto): (r: (Response<MovieDto>, Catalog))
    requires Valid(c)
    ensures Valid(r.1)
    ensures !r.0.Created? ==> r.1 == c
    ensures request.actorIds.None? ==> r.0 == Faulted(NullReference)
    ensures request.actorIds.Some? ==>
      var ids := request.actorIds.value;
      var k := FirstMissingActor(c, ids);
      && (k < |ids| ==> r.0 == NotFound(Some(MissingActorMessage(ids[k]))))
      && (k == |ids| && !Distinct(ids) ==> r.0 == Faulted(DuplicateKey))
      && (k == |ids| && Distinct(ids) ==>
            && r.0.Created?
            && r.0.location !in c.movies
            && r.1.movies == c.movies[r.0.location := MovieRow(request.title, request.year, request.genre)]
            && r.1.actors == c.actors
            && r.1.roles == c.roles + RolesFor(r.0.location, ids)
            && r.0.body == MovieDto(DefaultId, request.title, request.year, request.genre,
                                    if ids == [] then None else Some(ids)))
  {
    match request.actorIds
    case None => (Faulted(NullReference), c)
    case Some(ids) =>
      var k := FirstMissingActor(c, ids);
      if k < |ids| then (NotFound(Some(MissingActorMessage(ids[k]))), c)
      else
        match InsertMovie(c, MovieRow(request.title, request.year, request.genre), ids)
        case Failure(f) => (Faulted(f), c)
        case Success(ins) =>
          var movie := Movie(ins.id, request.title, request.year, request.genre, FixedUpRoles(ins.id, ids));
          (Created(ins.id, MovieMapper.ToDto(movie)), ins.store)
  }

  /** POST /movies as the framework runs it: the body is validated, then the action runs. */
  function PostMovie(c: Catalog, request: CreateMovieDto, currentYear: int): (r: (Response<MovieDto>, Catalog))
    requires Valid(c)
    ensures Valid(r.1)
    ensures !RequestValidation.CreateMovieValid(request, currentYear) ==> r == (BadRequest, c)
    ensures RequestValidation.CreateMovieValid(request, currentYear) ==>
      r == CreateMovieWithActors(c, request) && r.0 != Faulted(NullReference)
  {
    if !RequestValidation.CreateMovieValid(request, currentYear) then (BadRequest, c)
    else CreateMovieWithActors(c, request)
  }

  /** PUT /movies/{movieId}, the action body: 404 when absent; otherwise title, year and genre are overwritten, 204. */
  function UpdateMovie(c: Catalog, movieId: int, request: UpdateMovieDto): (r: (Response<()>, Catalog))
    requires Valid(c)
    ensures Valid(r.1)
    ensures movieId !in c.movies ==> r == (NotFound(None), c)
    ensures movieId in c.movies ==>
      && r.0 == NoContent
      && r.1.movies == c.movies[movieId := MovieRow(request.title, request.year, request.genre)]
      && r.1.actors == c.actors
      && r.1.roles == c.roles
  {
    if movieId !in c.movies then (NotFound(None), c)
    else (NoContent, ReplaceMovie(c, movieId, MovieRow(request.title, request.year, request.genre)))
  }

  /** PUT /movies/{movieId} as the framework runs it: the body is validated, then the action runs. */
  function PutMovie(c: Catalog, movieId: int, request: UpdateMovieDto, currentYear: int): (r: (Response<()>, Catalog))
    requires Valid(c)
    ensures Valid(r.1)
    ensures !RequestValidation.UpdateMovieValid(request, currentYear) ==> r == (BadRequest, c)
    ensures RequestValidation.UpdateMovieValid(request, currentYear) ==> r == UpdateMovie(c, movieId, request)
  {
    if !RequestValidation.UpdateMovieValid(request, currentYear) then (BadRequest, c)
    else UpdateMovie(c, movieId, request)
  }

  /** DELETE /movies/{movieId}: 404 when absent; otherwise the movie and its roles are removed, 204. */
  function DeleteMovie(c: Catalog, movieId: int): (r: (Response<()>, Catalog))
    requires Valid(c)
    ensures Valid(r.1)
    ensures movieId !in c.movies ==> r == (NotFound(None), c)
    ensures movieId in c.movies ==>
      && r.0 == NoContent
      && r.1.movies.Keys == c.movies.Keys - {movieId}
      && (forall m :: m in r.1.movies ==> r.1.movies[m] == c.movies[m])
      && (forall role :: role in r.1.roles <==> role in c.roles && role.movieId != movieId)
      && r.1.actors == c.actors
  {
    if movieId !in c.movies then (NotFound(None), c)
    else (NoContent, RemoveMovie(c, movieId))
  }

  // ------------------------------------------------------------ properties

  /** The DTOs whose year is `year`, order kept. */
  function KeepYear(ds: seq<MovieDto>, year: int): seq<MovieDto> {
    if ds == [] then []
    else if ds[0].year == year then [ds[0]] + KeepYear(ds[1..], year)
    else KeepYear(ds[1..], year)
  }

  lemma {:induction false} MovieDtosCommuteWithYearFilter(c: Catalog, ids: seq<int>, year: int)
    requires forall id :: id in ids ==> id in c.movies
    ensures MovieDtos(c, Filter(ids, m => m in c.movies && c.movies[m].year == year))
         == KeepYear(MovieDtos(c, ids), year)
  {
    var p := m => m in c.movies && c.movies[m].year == year;
    if ids != [] {
      MovieDtosCommuteWithYearFilter(c, ids[1..], year);
      assert MovieDtos(c, ids)[1..] == MovieDtos(c, ids[1..]);
    }
  }

  /** Searching by year returns what filtering the full movie list by year returns, in the same order. */
  lemma YearSearchIsFilteredList(c: Catalog, year: int)
    ensures GetMoviesByYear(c, year).body == KeepYear(GetMovies(c).body, year)
  {
    var all := AscendingElements(c.movies.Keys);
    YearFilterIsSearchOrder(c, all, year);
    MovieDtosCommuteWithYearFilter(c, all, year);
  }

  /** Filtering the ascending list of all movies by year gives the ascending list of that year's movies. */
  lemma YearFilterIsSearchOrder(c: Catalog, all: seq<int>, year: int)
    requires Enumerates(all, c.movies.Keys)
    ensures Filter(all, m => m in c.movies && c.movies[m].year == year) == AscendingElements(MoviesInYear(c, year))
  {
    var p := m => m in c.movies && c.movies[m].year == year;
    FilterEnumerates(all, c.movies.Keys, p);
    assert (set x | x in c.movies.Keys && p(x)) == MoviesInYear(c, year);
    EnumerationIsUnique(Filter(all, p), AscendingElements(MoviesInYear(c, year)), MoviesInYear(c, year));
  }

  /** A movie created by POST is then found by GET with the request's fields and exactly its actors. */
  lemma CreatedMovieIsFound(c: Catalog, request: CreateMovieDto, currentYear: int)
    requires Valid(c)
    requires PostMovie(c, request, currentYear).0.Created?
    ensures var (r, c1) := PostMovie(c, request, currentYear);
      var d := GetMovie(c1, r.location).body;
      && GetMovie(c1, r.location).Ok?
      && d.title == request.title && d.year == request.year && d.genre == request.genre
      && (forall a :: a in d.actors.value <==> a in request.actorIds.value)
  {
    var (r, c1) := PostMovie(c, request, currentYear);
    var ids := request.actorIds.value;
    var m := r.location;
    forall a ensures a in ActorIdsOfMovie(c1, m) <==> a in ids {
      if a in ActorIdsOfMovie(c1, m) {
        var role :| role in c1.roles && role.movieId == m && role.actorId == a;
        if role in c.roles {
          assert false;
        }
      }
      if a in ids {
        assert MovieRole(m, a) in RolesFor(m, ids);
      }
    }
  }

  /** After PUT, GET shows the new title, year and genre, and the same cast as before. */
  lemma UpdatedMovieIsFound(c: Catalog, movieId: int, request: UpdateMovieDto, currentYear: int)
    requires Valid(c)
    requires PutMovie(c, movieId, request, currentYear).0 == NoContent
    ensures var c1 := PutMovie(c, movieId, request, currentYear).1;
      var d := GetMovie(c1, movieId).body;
      && GetMovie(c1, movieId).Ok?
      && d.title == request.title && d.year == request.year && d.genre == request.genre
      && d.actors == GetMovie(c, movieId).body.actors
  {
  }

  /** After DELETE the movie is not found and is in no actor's filmography. */
  lemma DeletedMovieIsGone(c: Catalog, movieId: int)
    requires Valid(c)
    ensures var c1 := DeleteMovie(c, movieId).1;
      && GetMovie(c1, movieId) == NotFound(None)
      && GetActorsFromMovie(c1, movieId) == NotFound(None)
      && forall a :: movieId !in FilmographyOf(c1, a)
  {
  }

  /** Different missing actors get different 404 messages. */
  lemma MissingActorMessageNamesTheActor(a: int, b: int)
    requires MissingActorMessage(a) == MissingActorMessage(b)
    ensures a == b
  {
    var prefix := "Actor: ";
    assert Decimal.FromInt(a) == MissingActorMessage(a)[|prefix|..];
    assert Decimal.FromInt(b) == MissingActorMessage(b)[|prefix|..];
    Decimal.FromIntInjective(a, b);
  }
}

=== FILE: not_empty_collection.dfy ===
/** `Movies.Attributes.NotEmptyCollectionAttribute`. */
module NotEmptyCollection {

  /**
   * The run-time shape of the value handed to `IsValid`: null, an
   * `ICollection` (arrays, lists), an `IEnumerable` that is not a
   * collection (a string, a lazy query), given by the elements its
   * enumerator yields, or something that cannot be enumerated.
   */
  datatype Value<T> =
    | Null
    | Collection(items: seq<T>)
    | Enumeration(elements: seq<T>)
    | NotEnumerable

  /** The elements a `foreach` over the value would visit; none for null or a scalar. */
  function Enumerated<T>(value: Value<T>): (xs: seq<T>)
    ensures value.Collection? ==> xs == value.items
    ensures value.Enumeration? ==> xs == value.elements
    ensures value.Null? || value.NotEnumerable? ==> xs == []
  {
    match value
    case Collection(items) => items
    case Enumeration(elements) => elements
    case _ => []
  }

  /**
   * A collection passes when its count is positive; any other enumerable
   * when its enumerator moves to a first element; null and scalars fail.
   * Either way the value passes exactly when it can be enumerated and
   * enumerating it visits some element.
   */
  predicate IsValid<T>(value: Value<T>): (ok: bool)
    ensures ok <==> (value.Collection? || value.Enumeration?) && exists x :: x in Enumerated(value)
  {
    match value
    case Collection(items) => assert items != [] ==> items[0] in Enumerated(value); |items| > 0
    case Enumeration(elements) => assert elements != [] ==> elements[0] in Enumerated(value); |elements| > 0
    case _ => false
  }

  /**
   * Counting and enumerating agree: the same elements pass or fail
   * whether they arrive as a collection or as a bare enumerable.
   */
  lemma ShapeDoesNotMatter<T>(xs: seq<T>)
    ensures IsValid(Collection(xs)) == IsValid(Enumeration(xs))
    ensures IsValid(Collection(xs)) <==> xs != []
  {
  }

  const MessageSuffix: string := " collection cannot be null or empty."

  /** The message names the field, then says the collection must not be null or empty. */
  function FormatErrorMessage(name: string): (message: string)
    ensures |message| == |name| + |MessageSuffix|
    ensures message[..|name|] == name && message[|name|..] == MessageSuffix
  {
    name + MessageSuffix
  }

  /** The message determines the field it was built for. */
  lemma FormatErrorMessageInjective(a: string, b: string)
    requires FormatErrorMessage(a) == FormatErrorMessage(b)
    ensures a == b
  {
    var m := FormatErrorMessage(a);
    assert |a| == |b|;
    assert a == m[..|a|] == b;
  }
}

=== FILE: ordering.dfy ===
/**
 * Ascending enumerations of finite sets of ids. Every list the service
 * returns is read out of a table; the model fixes that order to ascending
 * id so that lists are functions of the store.
 */
module Ordering {

  /** Strictly ascending, hence free of repeats. */
  predicate Ascending(ids: seq<int>) {
    forall i, j :: 0 <= i < j < |ids| ==> ids[i] < ids[j]
  }

  /** No element occurs twice. */
  predicate Distinct<T(==)>(xs: seq<T>) {
    forall i, j :: 0 <= i < j < |xs| ==> xs[i] != xs[j]
  }

  /** `ids` lists exactly the elements of `s`, in ascending order. */
  ghost predicate Enumerates(ids: seq<int>, s: set<int>) {
    Ascending(ids) && forall x :: x in ids <==> x in s
  }

  /** Some element of a non-empty set. */
  lemma PickElement(s: set<int>) returns (y: int)
    requires s != {}
    ensures y in s
  {
    if forall x :: x !in s {
      assert false;
    }
    y :| y in s;
  }

  lemma {:induction false} MinimumExists(s: set<int>)
    requires s != {}
    ensures exists m :: m in s && forall x :: x in s ==> m <= x
  {
    var y := PickElement(s);
    if s == {y} {
      assert forall x :: x in s ==> y <= x;
    } else {
      MinimumExists(s - {y});
      var m :| m in s - {y} && forall x :: x in s - {y} ==> m <= x;
      var least := if y < m then y else m;
      forall x | x in s ensures least <= x {
        if x != y {
          assert x in s - {y};
        }
      }
    }
  }

  /** The elements of `s` in ascending order. */
  function AscendingElements(s: set<int>): (ids: seq<int>)
    ensures Enumerates(ids, s)
    ensures |ids| == |s|
    decreases |s|
  {
    if s == {} then []
    else
      MinimumExists(s);
      var m :| m in s && forall x :: x in s ==> m <= x;
      var rest := AscendingElements(s - {m});
      PrependMinimum(m, rest, s);
      [m] + rest
  }

  /** The least element of a set, put before an enumeration of the others, enumerates the set. */
  lemma PrependMinimum(m: int, rest: seq<int>, s: set<int>)
    requires m in s && forall x :: x in s ==> m <= x
    requires Enumerates(rest, s - {m}) && |rest| == |s - {m}|
    ensures Enumerates([m] + rest, s)
    ensures |[m] + rest| == |s|
  {
    var ids := [m] + rest;
    assert forall x :: x in rest ==> m < x;
    forall i, j | 0 <= i < j < |ids| ensures ids[i] < ids[j] {
      if i > 0 {
        assert ids[i] == rest[i - 1] && ids[j] == rest[j - 1];
        assert rest[i - 1] < rest[j - 1];
      } else {
        assert ids[j] == rest[j - 1] && rest[j - 1] in rest;
      }
    }
    forall x ensures x in ids <==> x in s {
      if x in s && x != m {
        assert x in rest;
      }
    }
  }

  /** An enumeration is empty exactly when its set is. */
  lemma EnumerationOfEmpty(a: seq<int>, s: set<int>)
    requires Enumerates(a, s)
    ensures a == [] <==> s == {}
  {
    if a != [] {
      assert a[0] in a;
      assert a[0] in s;
    } else if s != {} {
      var x := PickElement(s);
      assert false;
    }
  }

  /** The head of an enumeration is the least element; the tail enumerates the rest. */
  lemma EnumerationHead(a: seq<int>, s: set<int>)
    requires Enumerates(a, s) && a != []
    ensures a[0] in s && forall x :: x in s ==> a[0] <= x
    ensures Enumerates(a[1..], s - {a[0]})
  {
    assert a[0] in a;
    forall x | x in s ensures a[0] <= x {
      var k :| 0 <= k < |a| && a[k] == x;
    }
    forall x ensures x in a[1..] <==> x in s - {a[0]} {
      if x in a[1..] {
        var k :| 0 <= k < |a[1..]| && a[1..][k] == x;
        assert a[k + 1] == x;
      }
      if x in s - {a[0]} {
        var k :| 0 <= k < |a| && a[k] == x;
        assert a[1..][k - 1] == x;
      }
    }
  }

  /** A set has exactly one ascending enumeration. */
  lemma {:induction false} EnumerationIsUnique(a: seq<int>, b: seq<int>, s: set<int>)
    requires Enumerates(a, s) && Enumerates(b, s)
    ensures a == b
    decreases |a|
  {
    EnumerationOfEmpty(a, s);
    EnumerationOfEmpty(b, s);
    if s != {} {
      EnumerationHead(a, s);
      EnumerationHead(b, s);
      assert a[0] == b[0];
      EnumerationIsUnique(a[1..], b[1..], s - {a[0]});
      assert a == [a[0]] + a[1..] && b == [b[0]] + b[1..];
    }
  }

  /** The elements of `ids` that satisfy `p`, order kept. */
  function Filter(ids: seq<int>, p: int -> bool): (kept: seq<int>)
    ensures forall x :: x in kept <==> x in ids && p(x)
    ensures |kept| <= |ids|
  {
    if ids == [] then []
    else if p(ids[0]) then [ids[0]] + Filter(ids[1..], p)
    else Filter(ids[1..], p)
  }

  lemma {:induction false} FilterKeepsAscending(ids: seq<int>, p: int -> bool)
    requires Ascending(ids)
    ensures Ascending(Filter(ids, p))
  {
    if ids != [] {
      FilterKeepsAscending(ids[1..], p);
      var rest := Filter(ids[1..], p);
      forall x | x in rest ensures ids[0] < x {
        var k :| 0 <= k < |ids[1..]| && ids[1..][k] == x;
        assert ids[k + 1] == x;
      }
      if p(ids[0]) {
        var kept := [ids[0]] + rest;
        forall i, j | 0 <= i < j < |kept| ensures kept[i] < kept[j] {
          if i == 0 {
            assert kept[j] == rest[j - 1] && kept[j] in rest;
          } else {
            assert kept[i] == rest[i - 1] && kept[j] == rest[j - 1];
          }
        }
      }
    }
  }

  /** Filtering an enumeration of `s` by `p` enumerates the part of `s` satisfying `p`. */
  lemma FilterEnumerates(ids: seq<int>, s: set<int>, p: int -> bool)
    requires Enumerates(ids, s)
    ensures Enumerates(Filter(ids, p), set x | x in s && p(x))
  {
    FilterKeepsAscending(ids, p);
  }
}

=== FILE: request_validation.dfy ===
/**
 * The validation the framework runs on a request body before an action
 * sees it: `[Required]` on strings, `[FutureYearValidation]` on years and
 * the non-empty-collection attribute on `ActorIds`.
 */
module RequestValidation {
  import opened Wrappers
  import opened Entities
  import opened Dto
  import NotEmptyCollection
  import FutureYearValidation

  /** `Char.IsWhiteSpace`: the Unicode separators and the control characters U+0009..U+000D and U+0085. */
  predicate IsWhiteSpace(ch: char) {
    || ch == ' '
    || '\t' <= ch <= '\r'
    || ch == '\U{0085}'
    || ch == '\U{00A0}'
    || ch == '\U{1680}'
    || '\U{2000}' <= ch <= '\U{200A}'
    || ch == '\U{2028}'
    || ch == '\U{2029}'
    || ch == '\U{202F}'
    || ch == '\U{205F}'
    || ch == '\U{3000}'
  }

  /** `[Required]` on a string: not null, and not empty or white space only. */
  predicate Required(s: Text) {
    s.Some? && exists i :: 0 <= i < |s.value| && !IsWhiteSpace(s.value[i])
  }

  /**
   * An `int[]` is an `ICollection`; a missing array is null. So the actor
   * list passes the non-empty check exactly when it is present and has an id.
   */
  function AsValue(ids: Option<seq<int>>): (v: NotEmptyCollection.Value<int>)
    ensures ids.None? <==> v.Null?
    ensures ids.Some? ==> v == NotEmptyCollection.Collection(ids.value)
    ensures NotEmptyCollection.IsValid(v) <==> ids.Some? && ids.value != []
  {
    match ids
    case None => NotEmptyCollection.Null
    case Some(xs) => NotEmptyCollection.ShapeDoesNotMatter(xs); NotEmptyCollection.Collection(xs)
  }

  predicate CreateActorValid(request: CreateActorDto) {
    Required(request.firstName) && Required(request.lastName)
  }

  predicate CreateMovieValid(request: CreateMovieDto, currentYear: int) {
    && Required(request.title)
    && FutureYearValidation.IsValid(request.year, currentYear)
    && NotEmptyCollection.IsValid(AsValue(request.actorIds))
  }

  predicate UpdateMovieValid(request: UpdateMovieDto, currentYear: int) {
    Required(request.title) && FutureYearValidation.IsValid(request.year, currentYear)
  }

  /** What a request that passes movie-creation validation guarantees the action. */
  lemma ValidCreateMovieRequest(request: CreateMovieDto, currentYear: int)
    requires CreateMovieValid(request, currentYear)
    ensures request.title.Some? && |request.title.value| > 0
    ensures request.year <= currentYear
    ensures request.actorIds.Some? && |request.actorIds.value| > 0
  {
  }

  /** The actor requests of the integration tests: both names present passes; an empty or null name fails. */
  lemma ActorRequestCases(birthDate: Date)
    ensures CreateActorValid(CreateActorDto(Some("Al"), Some("Pacino"), birthDate))
    ensures !CreateActorValid(CreateActorDto(Some("Al"), Some(""), birthDate))
    ensures !CreateActorValid(CreateActorDto(Some("Al"), None, birthDate))
    ensures !CreateActorValid(CreateActorDto(Some(""), Some("Pacino"), birthDate))
    ensures !CreateActorValid(CreateActorDto(None, Some("Pacino"), birthDate))
  {
    assert !IsWhiteSpace("Al"[0]) && !IsWhiteSpace("Pacino"[0]);
  }

  /** Year 3000 fails whatever the title and actor list, as long as the clock is before 3000. */
  lemma FutureYearRejected(title: Text, genre: Text, actorIds: Option<seq<int>>, currentYear: int)
    requires currentYear < 3000
    ensures !CreateMovieValid(CreateMovieDto(title, 3000, genre, actorIds), currentYear)
    ensures !UpdateMovieValid(UpdateMovieDto(title, 3000, genre), currentYear)
  {
  }
}

=== FILE: wrappers.dfy ===
/** Option and Result, used for nullable values and for exceptions that escape an operation. */
module Wrappers {

  /** `None` stands for a C# `null`. */
  datatype Option<+T> = None | Some(value: T)

  /** `Failure` stands for an exception thrown out of an operation. */
  datatype Result<+R, +E> = Success(value: R) | Failure(error: E)
}
